=== FILE: README.md ===
# SAP OData client, modelled in Dafny

This project models `SAP_ODataService` in `main.py`, an asynchronous client for an
SAP OData service. It covers the following parts:

- **Construction** and the **Basic-Auth header**: `"Basic "` followed by the Base64
  (section 4 of RFC 4648) of the UTF-8 bytes of `username:password`. A missing or empty
  credential raises `AuthenticationError`.
- **`make_request`**, as a state machine over an explicit state:
  - the rate-limit reset time;
  - a clock;
  - every request sent so far;
  - the messages `handle_errors` logged.

  It models:
  - the gate;
  - the 429 branch, which sets the reset time from `Retry-After`;
  - the retry of every other non-200 status, which advances the clock by the
    one-second back-off;
  - logging and a `None` result once the retries are exhausted;
  - the `except` handler, which turns everything raised inside the `try` into
    `DataFetchError`.
- **`handle_errors`**: which message is logged for which status.
- **`handle_pagination`**: following `@odata.nextLink` and appending every page's
  `value` items. Python's `in`, `[]`, `.extend` and `.get` are modelled on JSON values,
  including the `TypeError`/`KeyError`/`AttributeError` they raise.
- **Routing**: `get_data`, `create_data`, `update_data` and `delete_data` build
  `<service_url>/<endpoint>` and choose the HTTP method.

The model is built as follows:

- **Server**: the HTTP session is a server oracle, `Server = (Request, nat) -> Response`.
  It gives the answer to a request, given how many exchanges came before it. A timeout
  or connection error is the response `TransportFault`.
- **Time and environment**: `time.time()` is an integer clock in the state. The
  environment and the settings file are parameters.
- **`None`**: Python's `None` is `JNull`, so a `make_request` that exhausted its retries
  returns `JNull`.
- **Page budget**: the pagination loop gets a page budget (`fuel`), because the server
  decides how many pages there are. Running out is the error `PagesExhausted`, which the
  source does not have.

## Behaviour worth knowing

These facts about `main.py` are easy to miss, and the model keeps each of them:

- The `RateLimitError` raised for a 429 (main.py:62) is inside the `try`. The handler at
  main.py:74-76 therefore turns it into `DataFetchError`. Only the gate (main.py:53-54)
  lets `RateLimitError` reach the caller.
- A `Retry-After` that `int()` rejects does not default to 0. It raises inside the `try`,
  giving `DataFetchError`, and the reset time is left alone.
- A negative `Retry-After` is accepted, and it can move the reset time back. So
  `Executor.ResetNeverMovesBack` assumes a server that never sends one.
- The log line for an unnamed status is `HTTP Error <status>.`, with a final period.

## Model

| member | source | states |
|---|---|---|
| `Auth.BasicAuthHeader` | main.py:39-46 | fails exactly when a credential is missing or empty, and then with `AuthenticationError`; otherwise the value starts with `"Basic "` and the Base64 part has a length divisible by four |
| `Auth.HeaderDecodes` | main.py:42-46 | for any non-empty credentials, colons in the username included, the text after `"Basic "` decodes as Base64 to exactly the UTF-8 bytes of `username:password`, which decode back to that text |
| `Auth.HeaderRoundTrip` | main.py:44-46 | a server that strips `"Basic "`, decodes Base64, decodes UTF-8 and splits at the first colon gets back exactly the username and password (when the username has no colon) |
| `Base64.DecodeEncode` | main.py:45 | decoding the Base64 text of any octet string gives that octet string back |
| `Base64.EncodeLength` | main.py:45 | every started group of three octets becomes exactly four characters |
| `Base64.EncodeAlphabet` | main.py:45 | the encoded text uses only the 64 alphabet letters and `=` |
| `Utf8.DecodeEncode` | main.py:45 | strict UTF-8 decoding of `credentials.encode('utf-8')` gives the credentials back |
| `Service.NewClient` | main.py:30-35 | construction fails exactly when a credential is missing, with `AuthenticationError`; otherwise it keeps the service URL and sends `Accept: application/json` and a `Basic` `Authorization` header |
| `Service.NewClientCarriesCredentials` | main.py:32-35 | the client's `Authorization` header decodes to the credentials it was built from (when the username has no colon) |
| `Service.EndpointUrlInjective` | main.py:79 | two endpoints of one client give the same URL exactly when they are the same endpoint |
| `Service.CreateData` | main.py:90-92 | every request sent is a POST to the endpoint's URL with the body, at least one when the gate is open and at most four; `RateLimitError` exactly when the gate is shut, which sends nothing; any other failure is `DataFetchError` for that URL; a success is the JSON body of a final 200, or `None` after a retryable final status that was logged |
| `Service.UpdateData` | main.py:94-96 | the same, with PUT |
| `Service.DeleteData` | main.py:98-100 | the same, with DELETE and no body |
| `Service.GetData` | main.py:78-88 | `get_data` with the loop exactly as written: a shut gate refuses the read with `RateLimitError` and changes nothing; otherwise the first request is a GET of `<service_url>/<endpoint>` with the caller's parameters and no body, and every request the read sends is a GET with the client's headers and no body |
| `Service.GetDataFixed` | main.py:78-88 | the same, for the read with the corrected loop |
| `Service.GetDataSinglePage` | main.py:78-88 | as written, an endpoint that answers one page without a link returns that page after exactly one request |
| `OrdersExample.TwoPageReadFails` | main.py:82-88 | as written, reading two linked pages of `Orders` ends in `DataFetchError` for the URL `None` |
| `OrdersExample.TwoPageReadFixed` | main.py:82-88 | with the loop corrected, the same read returns both orders in page order after two requests |
| `Executor.Initial` | main.py:36 | a new client has sent nothing, logged nothing, and its gate is open at any non-negative time |
| `Executor.MakeRequest` | main.py:52-76 | requests sent are only this request, appended to those before, at most `retries + 1` of them and, once past the gate with a URL, at least one; `RateLimitError` exactly when the gate is shut, leaving the state alone; any other failure is `DataFetchError` for the URL; a success ended on a 200 whose body is the result, or on a retryable status with `None` and that status logged |
| `Executor.Attempt` | main.py:56-76 | one pass through the `try` block: the same request discipline, every failure is `DataFetchError`, and a success is settled as above |
| `Executor.TooManyRequestsSetsReset` | main.py:59-62 | a 429 is not retried: one request, reset time set to the clock plus `Retry-After`, `DataFetchError` for the URL |
| `Executor.TooManyRequestsAfterRetries` | main.py:59-67 | a 429 with `Retry-After: s` after `f` retryable answers ends the call after `f + 1` requests with `DataFetchError` for the URL, the clock `f` seconds on and the reset time at `now + f + s` |
| `Executor.TooManyRequestsShutsGate` | main.py:53-67 | after a 429 with `Retry-After: s`, whether on the first exchange or after `f` retryable answers, every later call before the clock reaches `now + f + s` is refused with `RateLimitError`, whatever its URL, and sends nothing |
| `Executor.MalformedRetryAfterKeepsReset` | main.py:59-60 | a 429 whose `Retry-After` is not an integer: one request, `DataFetchError`, reset time unchanged |
| `Executor.TransportFaultNotRetried` | main.py:56-58 | a transport fault or timeout is not retried: one request, `DataFetchError`, reset time unchanged |
| `Executor.RetriesUntilOk` | main.py:64-72 | with `f` retryable answers followed by a 200 and `f <= retries`, the call returns that body after `f + 1` requests, logs nothing, and the clock advances by `f` |
| `Executor.ExhaustedRetries` | main.py:64-70 | when every answer is a status other than 200 and 429, the call sends exactly `retries + 1` requests, logs the last status's message once, and returns `None` |
| `Executor.ResetNeverMovesBack` | main.py:53-61 | with no negative `Retry-After`, the reset time and the clock never decrease |
| `Classifier.GenericPrefixExactlyUnnamed` | main.py:102-114 | a message starts with `HTTP Error ` exactly when the status is not 400, 401, 403, 404 or 500 |
| `Classifier.GenericMessageNamesStatus` | main.py:113-114 | the number in a generic message reads back as the status |
| `Classifier.HandleErrorsInjective` | main.py:102-114 | different statuses are logged with different messages |
| `Numerals.ParseIntToString` | main.py:60 | `int(str(n)) == n` for every integer |
| `Numerals.IntToStringInjective` | main.py:114 | different integers print differently, so different unnamed statuses give different log lines |
| `Numerals.LeadingSpaceIgnored` | main.py:60 | `int()` ignores a white-space character before the number: `\t`, `\n`, `\v`, `\f`, `\r`, the space, or a non-ASCII character for which `str.isspace` holds |
| `Numerals.UnitSeparatorRejected` | main.py:60 | any text starting with one of the separators U+001C to U+001F (such as `Retry-After: "\x1f7"`) is malformed, because `int()` does not strip them although `str.isspace` holds for them |
| `Json.UpdateStores` | main.py:86-87 | after `d[k] = v`, `d.get(k)` is `v` |
| `Json.UpdateKeepsDistinct` | main.py:86-87 | assignment keeps the keys of a dict distinct |
| `Json.Update` | main.py:86-87 | assignment changes no other key, and adds `k` at the end only when it was absent |
| `Pagination.Subscript` | main.py:85-86 | `data[key]` succeeds exactly when `data` is a dict holding the key, and then gives that key's value; otherwise it raises `KeyError` on a dict and `TypeError` on anything else |
| `Pagination.Extend` | main.py:86 | `.extend` raises `TypeError` exactly for `None`, a number or a boolean; otherwise it keeps the existing items as a prefix and appends the list's items, the string's characters, or the dict's keys, in order |
| `Pagination.Step` | main.py:85-87 | a successful iteration leaves a dict with the same keys in the same order, with the link key still present |
| `Pagination.Merge` | main.py:86-87 | the same, for the update once the next page is fetched |
| `Pagination.StepAppends` | main.py:85-87 | one iteration appends the fetched page's items after the accumulated ones, stores the page's link or `None`, and leaves every other key alone |
| `Pagination.KeyPresentLoopFails` | main.py:84-87 | as written, a loop started on a dict holding the link key never returns normally |
| `Pagination.LinkedFirstPageFails` | main.py:82-88 | as written, `handle_pagination` raises whenever the first page has a link key |
| `Pagination.UnlinkedFirstPageReturned` | main.py:82-88 | a first page without a link key is returned unchanged, after the first request only |
| `Pagination.NoneFirstPageIsTypeError` | main.py:83-84 | a first request that returned `None` makes the loop test raise `TypeError` |
| `Pagination.LoopSendsGets` | main.py:84-85 | every request the loop sends is a GET with the client's headers and no body, appended after the earlier ones |
| `Pagination.PaginateSendsGets` | main.py:82-85 | the same for `handle_pagination`, whose first request, when the gate is open, is the GET of the URL with the caller's parameters |
| `Pagination.LoopFuelMonotone` | main.py:84-87 | unless the page budget ran out, a larger budget gives the same outcome |
| `Pagination.ChainLoopFixed` | main.py:84-87 | the corrected loop, started at page `i` of a linked chain, collects every item and sends one request per remaining page |
| `Pagination.ChainLoopAsWritten` | main.py:84-87 | the loop as written, on the same chain, ends by fetching the URL `None` |
| `Pagination.PaginateChainFixed` | main.py:82-88 | with the loop corrected, a chain of linked pages returns one dict whose `value` holds every page's items in page order, after one request per page |
| `Pagination.PaginateChainAsWritten` | main.py:82-88 | as written, any chain of two or more pages ends in `DataFetchError` for the URL `None` |

## Left out

- `Service.GetData` and `Service.GetDataFixed`: what a read returns is not in their
  contracts, because it depends on the server's pages. It is stated for chains of pages
  by `Pagination.PaginateChainAsWritten`, `Pagination.LinkedFirstPageFails` and
  `Pagination.PaginateChainFixed`, and for a single page by `Service.GetDataSinglePage`.
- `Executor.ResetNeverMovesBack`: it holds only for servers that send no negative
  `Retry-After`. The source accepts one, and then the reset time does move back. It also
  relies on calls running one at a time (see the next line).
- Concurrent calls are not modelled: the model runs each call to completion before the
  next starts. In the source, coroutines of one client share `rate_limit_reset`, so two
  overlapping calls that get 429 with `Retry-After` 100 and then 5 move the reset time
  back to the clock plus 5.
- `Pagination.LoopFuelMonotone`: the page budget stands in for an unbounded `while` loop.
  The model cannot say what happens when the server links pages forever; the source would
  loop forever.
- The `@cached(ttl=300)` decorator on `make_request` is not modelled. Every call reaches
  the server, and cache hits, expiry and serialisation are not modelled.
- The 10-second `async_timeout` wrapper and the aiohttp session are not modelled. A
  timeout or connection error appears only as the server answer `TransportFault`.
- `close()`, `main()`, the module-level `asyncio` import, and `sap_test/src/main.rs` are
  not part of this model.
- The `logger.error` call in the `except` handler is not recorded. The log in the state
  holds only the `handle_errors` messages.
- Reading `settings.ini` and `logging.ini` is not modelled, and the environment is not
  read: the service URL and both credentials are parameters.
- `asyncio.sleep(1)` is not modelled. The back-off is the clock advancing by one second
  per retry. Request latency is not modelled, so a 429 sets the reset time from the clock
  at that exchange.
- Floating-point time is not modelled. The clock is an integer, and the gate compares
  integers. So float overflow is not modelled either: for a `Retry-After` of magnitude
  about 1.8·10^308 or more, positive or negative, `time.time() + retry_after` at
  main.py:60 raises `OverflowError`, giving `DataFetchError` with the reset time
  unchanged, whereas the model sets the reset time to the clock plus that value.
- Python's `base64` library is replaced by a definition of section 4 of RFC 4648.
- Python's `int()` is modelled with its white space (`\t`, `\n`, `\v`, `\f`, `\r`, the
  space, and the non-ASCII characters for which `str.isspace` holds, but not U+001C to
  U+001F), a sign, and ASCII digits with single underscores. Other Unicode decimal digits (such as Arabic-Indic
  digits), which `int()` also accepts, are not modelled, and such a `Retry-After` reads
  as malformed.
- JSON numbers with a fraction or exponent (Python `float`) are not modelled: `JNum`
  holds integers only. Floats pass through the client unchanged, so nothing modelled
  depends on them.
- Environment strings holding lone surrogates are not modelled: a Dafny `string` holds
  Unicode scalar values only, so every credential is UTF-8 encodable.

## Findings

| source | as written | input that shows it | evidently intended | confidence | as-written member | corrected member |
|---|---|---|---|---|---|---|
| main.py:84-87 | the loop runs while the key `@odata.nextLink` is in `data`, and line 87 writes the next page's link back under that key, as `None` when the page has none; the key never leaves, so after the last page the loop calls `make_request(None)` | a first page of `Orders` whose `@odata.nextLink` points to a second page without a link (`OrdersExample.TwoPageServer`) gives `DataFetchError` instead of both orders | stop when the link is missing or `None`, and return the accumulated dict | not executed | `Pagination.PaginateChainAsWritten` | `Pagination.PaginateChainFixed` |

=== FILE: auth.dfy ===
/** The Basic-Auth header built once when the client is constructed
    (`generate_basic_auth_header`). */
module Auth {
  import opened Wrappers
  import opened Errors
  import Utf8
  import Base64

  /** Python truthiness of an environment lookup: `None` and `""` are false. */
  predicate Present(v: Option<string>) {
    v.Some? && v.value != ""
  }

  const Scheme: string := "Basic "

  /** The `Authorization` value: `"Basic "` and the Base64 of the UTF-8 bytes of
      `username:password`, or `AuthenticationError` if either is missing or empty. */
  function BasicAuthHeader(username: Option<string>, password: Option<string>): (r: Result<string, Error>)
    ensures r.Failure? <==> !Present(username) || !Present(password)
    ensures r.Failure? ==> r.error == AuthenticationError
    ensures r.Success? ==> |r.value| > |Scheme| && r.value[..|Scheme|] == Scheme
    ensures r.Success? ==> (|r.value| - |Scheme|) % 4 == 0
  {
    if !Present(username) || !Present(password) then Failure(AuthenticationError)
    else
      var credentials := username.value + ":" + password.value;
      var encoded := Base64.Encode(Utf8.Encode(credentials));
      assert |Utf8.Encode(credentials)| > 0 by {
        Utf8.EncodeAppend(username.value, ":" + password.value);
      }
      Base64.EncodeLength(Utf8.Encode(credentials));
      Success(Scheme + encoded)
  }

  /** Split at the first colon, as a server reads `user-id ":" password`
      (section 2 of RFC 7617). */
  function SplitAtColon(s: string): Option<(string, string)> {
    if s == [] then None
    else if s[0] == ':' then Some(([], s[1..]))
    else match SplitAtColon(s[1..])
      case None => None
      case Some((a, b)) => Some(([s[0]] + a, b))
  }

  /** What a server recovers from a header value: the scheme, then Base64,
      then UTF-8, then the split at the first colon. */
  function ParseBasicAuth(header: string): Option<(string, string)> {
    if |header| < |Scheme| || header[..|Scheme|] != Scheme then None
    else match Base64.Decode(header[|Scheme|..])
      case None => None
      case Some(bytes) =>
        match Utf8.Decode(bytes)
        case None => None
        case Some(text) => SplitAtColon(text)
  }

  lemma {:induction false} SplitAtColonJoin(u: string, p: string)
    requires ':' !in u
    ensures SplitAtColon(u + ":" + p) == Some((u, p))
  {
    if u == [] {
      assert u + ":" + p == [':'] + p;
    } else {
      assert (u + ":" + p)[1..] == u[1..] + ":" + p;
      SplitAtColonJoin(u[1..], p);
      assert [u[0]] + u[1..] == u;
    }
  }

  /** The header holds exactly `"Basic "` and the Base64 of the UTF-8 bytes of
      `username:password`, for every pair of credentials the client accepts,
      a username holding colons included. */
  lemma HeaderDecodes(username: string, password: string)
    requires username != "" && password != ""
    ensures BasicAuthHeader(Some(username), Some(password)).Success?
    ensures var header := BasicAuthHeader(Some(username), Some(password)).value;
      Base64.Decode(header[|Scheme|..]) == Some(Utf8.Encode(username + ":" + password))
    ensures Utf8.Decode(Utf8.Encode(username + ":" + password)) == Some(username + ":" + password)
  {
    var credentials := username + ":" + password;
    var header := BasicAuthHeader(Some(username), Some(password)).value;
    assert header[|Scheme|..] == Base64.Encode(Utf8.Encode(credentials));
    Base64.DecodeEncode(Utf8.Encode(credentials));
    Utf8.DecodeEncode(credentials);
  }

  /** The header carries the credentials: a server that decodes it gets back
      exactly the username and password, provided the username has no colon
      (RFC 7617 forbids one; the client does not check). */
  lemma HeaderRoundTrip(username: string, password: string)
    requires username != "" && password != ""
    requires ':' !in username
    ensures BasicAuthHeader(Some(username), Some(password)).Success?
    ensures ParseBasicAuth(BasicAuthHeader(Some(username), Some(password)).value) == Some((username, password))
  {
    var credentials := username + ":" + password;
    var bytes := Utf8.Encode(credentials);
    var header := BasicAuthHeader(Some(username), Some(password)).value;
    assert header == Scheme + Base64.Encode(bytes);
    assert header[|Scheme|..] == Base64.Encode(bytes);
    Base64.DecodeEncode(bytes);
    Utf8.DecodeEncode(credentials);
    SplitAtColonJoin(username, password);
  }
}

=== FILE: base64.dfy ===
/** Base64 as defined in section 4 of RFC 4648 (the encoding behind
    `base64.b64encode`): 3 octets become 4 characters of a 64-letter
    alphabet, and a final group of 1 or 2 octets is padded with `=`. */
module Base64 {
  import opened Wrappers
  import opened Bytes

  /** Table 1 of RFC 4648: the character for a 6-bit value. */
  function Alphabet(i: int): (c: char)
    requires 0 <= i < 64
  {
    if i < 26 then ('A' as int + i) as char
    else if i < 52 then ('a' as int + (i - 26)) as char
    else if i < 62 then ('0' as int + (i - 52)) as char
    else if i == 62 then '+'
    else '/'
  }

  /** The 6-bit value of an alphabet character; `None` for any other character. */
  function IndexOf(c: char): (r: Option<int>)
    ensures r.Some? ==> 0 <= r.value < 64
  {
    if 'A' <= c <= 'Z' then Some(c as int - 'A' as int)
    else if 'a' <= c <= 'z' then Some(c as int - 'a' as int + 26)
    else if '0' <= c <= '9' then Some(c as int - '0' as int + 52)
    else if c == '+' then Some(62)
    else if c == '/' then Some(63)
    else None
  }

  lemma IndexOfAlphabet(i: int)
    requires 0 <= i < 64
    ensures IndexOf(Alphabet(i)) == Some(i)
  {
  }

  /** A character that may appear in encoded output. */
  predicate IsOutputChar(c: char) {
    IndexOf(c).Some? || c == '='
  }

  /** Three octets, 24 bits, as four characters. */
  function EncodeTriple(a: byte, b: byte, c: byte): string {
    [Alphabet(a / 4), Alphabet((a % 4) * 16 + b / 16), Alphabet((b % 16) * 4 + c / 64), Alphabet(c % 64)]
  }

  /** A final group of one or two octets, padded to four characters with `=`. */
  function EncodeFinal(bs: seq<byte>): string
    requires 1 <= |bs| <= 2
  {
    if |bs| == 1 then
      [Alphabet(bs[0] / 4), Alphabet((bs[0] % 4) * 16), '=', '=']
    else
      [Alphabet(bs[0] / 4), Alphabet((bs[0] % 4) * 16 + bs[1] / 16), Alphabet((bs[1] % 16) * 4), '=']
  }

  /** `base64.b64encode`: groups of three, then a padded final group. */
  function Encode(bs: seq<byte>): (s: string)
    decreases |bs|
  {
    if |bs| == 0 then ""
    else if |bs| <= 2 then EncodeFinal(bs)
    else EncodeTriple(bs[0], bs[1], bs[2]) + Encode(bs[3..])
  }

  /** Every group of up to three octets becomes exactly four characters. */
  lemma {:induction false} EncodeLength(bs: seq<byte>)
    ensures |Encode(bs)| == 4 * ((|bs| + 2) / 3)
    decreases |bs|
  {
    if |bs| > 2 {
      EncodeLength(bs[3..]);
      assert (|bs| + 2) / 3 == (|bs[3..]| + 2) / 3 + 1;
    }
  }

  /** Encoded text uses only the 64 letters and the pad character. */
  lemma {:induction false} EncodeAlphabet(bs: seq<byte>)
    ensures forall i :: 0 <= i < |Encode(bs)| ==> IsOutputChar(Encode(bs)[i])
    decreases |bs|
  {
    var s := Encode(bs);
    forall i | 0 <= i < |s|
      ensures IsOutputChar(s[i])
    {
      if |bs| <= 2 || i < 4 {
        if s[i] != '=' {
          var k :| 0 <= k < 64 && s[i] == Alphabet(k);
          IndexOfAlphabet(k);
        }
      } else {
        EncodeAlphabet(bs[3..]);
        assert s[i] == Encode(bs[3..])[i - 4];
      }
    }
  }

  /** Four 6-bit values back to three octets. */
  function Combine(w: int, x: int, y: int, z: int): seq<byte>
    requires 0 <= w < 64 && 0 <= x < 64 && 0 <= y < 64 && 0 <= z < 64
  {
    [w * 4 + x / 16, (x % 16) * 16 + y / 4, (y % 4) * 64 + z]
  }

  /** The last group: four characters, possibly ending in one or two `=`.
      Padding bits must be zero, so every octet string has one encoding. */
  function DecodeFinal(q: string): Option<seq<byte>>
    requires |q| == 4
  {
    match (IndexOf(q[0]), IndexOf(q[1]), IndexOf(q[2]), IndexOf(q[3]))
    case (Some(w), Some(x), Some(y), Some(z)) => Some(Combine(w, x, y, z))
    case (Some(w), Some(x), Some(y), None) =>
      if q[3] == '=' && y % 4 == 0 then Some(Combine(w, x, y, 0)[..2]) else None
    case (Some(w), Some(x), None, None) =>
      if q[2] == '=' && q[3] == '=' && x % 16 == 0 then Some(Combine(w, x, 0, 0)[..1]) else None
    case _ => None
  }

  /** Strict decoding: the length is a multiple of four, only the last group
      may carry padding, and no other character is accepted. */
  function Decode(s: string): Option<seq<byte>>
    decreases |s|
  {
    if |s| == 0 then Some([])
    else if |s| < 4 then None
    else if |s| == 4 then DecodeFinal(s)
    else
      match (IndexOf(s[0]), IndexOf(s[1]), IndexOf(s[2]), IndexOf(s[3]))
      case (Some(w), Some(x), Some(y), Some(z)) =>
        (match Decode(s[4..])
         case None => None
         case Some(rest) => Some(Combine(w, x, y, z) + rest))
      case _ => None
  }

  lemma CombineTriple(a: byte, b: byte, c: byte)
    ensures Combine(a / 4, (a % 4) * 16 + b / 16, (b % 16) * 4 + c / 64, c % 64) == [a, b, c]
  {
  }

  lemma DecodeFinalFull(w: int, x: int, y: int, z: int)
    requires 0 <= w < 64 && 0 <= x < 64 && 0 <= y < 64 && 0 <= z < 64
    ensures DecodeFinal([Alphabet(w), Alphabet(x), Alphabet(y), Alphabet(z)]) == Some(Combine(w, x, y, z))
  {
    IndexOfAlphabet(w);
    IndexOfAlphabet(x);
    IndexOfAlphabet(y);
    IndexOfAlphabet(z);
  }

  lemma DecodeFinalPadOne(w: int, x: int, y: int)
    requires 0 <= w < 64 && 0 <= x < 64 && 0 <= y < 64 && y % 4 == 0
    ensures DecodeFinal([Alphabet(w), Alphabet(x), Alphabet(y), '=']) == Some(Combine(w, x, y, 0)[..2])
  {
    IndexOfAlphabet(w);
    IndexOfAlphabet(x);
    IndexOfAlphabet(y);
  }

  lemma DecodeFinalPadTwo(w: int, x: int)
    requires 0 <= w < 64 && 0 <= x < 64 && x % 16 == 0
    ensures DecodeFinal([Alphabet(w), Alphabet(x), '=', '=']) == Some(Combine(w, x, 0, 0)[..1])
  {
    IndexOfAlphabet(w);
    IndexOfAlphabet(x);
  }

  lemma DecodeFront(w: int, x: int, y: int, z: int, rest: string)
    requires 0 <= w < 64 && 0 <= x < 64 && 0 <= y < 64 && 0 <= z < 64
    requires |rest| > 0
    ensures Decode([Alphabet(w), Alphabet(x), Alphabet(y), Alphabet(z)] + rest)
         == match Decode(rest)
            case None => None
            case Some(tail) => Some(Combine(w, x, y, z) + tail)
  {
    var s := [Alphabet(w), Alphabet(x), Alphabet(y), Alphabet(z)] + rest;
    IndexOfAlphabet(w);
    IndexOfAlphabet(x);
    IndexOfAlphabet(y);
    IndexOfAlphabet(z);
    assert s[4..] == rest;
  }

  lemma DecodeEncodeOne(a: byte)
    ensures Decode(EncodeFinal([a])) == Some([a])
  {
    var q := EncodeFinal([a]);
    assert q == [Alphabet(a / 4), Alphabet((a % 4) * 16), '=', '='];
    assert Decode(q) == DecodeFinal(q);
    DecodeFinalPadTwo(a / 4, (a % 4) * 16);
    CombineTriple(a, 0, 0);
    assert Combine(a / 4, (a % 4) * 16, 0, 0)[..1] == [a];
  }

  lemma DecodeEncodeTwo(a: byte, b: byte)
    ensures Decode(EncodeFinal([a, b])) == Some([a, b])
  {
    var y := (b % 16) * 4;
    assert y % 4 == 0;
    var q := EncodeFinal([a, b]);
    assert q == [Alphabet(a / 4), Alphabet((a % 4) * 16 + b / 16), Alphabet(y), '='];
    assert Decode(q) == DecodeFinal(q);
    DecodeFinalPadOne(a / 4, (a % 4) * 16 + b / 16, y);
    CombineTriple(a, b, 0);
    assert Combine(a / 4, (a % 4) * 16 + b / 16, y, 0)[..2] == [a, b];
  }

  /** One full group in front of an encoded remainder. */
  lemma DecodeEncodeGroup(a: byte, b: byte, c: byte, rest: string, tail: seq<byte>)
    requires Decode(rest) == Some(tail)
    ensures Decode(EncodeTriple(a, b, c) + rest) == Some([a, b, c] + tail)
  {
    var w, x, y, z := a / 4, (a % 4) * 16 + b / 16, (b % 16) * 4 + c / 64, c % 64;
    CombineTriple(a, b, c);
    var head := [Alphabet(w), Alphabet(x), Alphabet(y), Alphabet(z)];
    assert EncodeTriple(a, b, c) == head;
    if rest == [] {
      DecodeFinalFull(w, x, y, z);
      assert head + rest == head;
      assert [a, b, c] + tail == [a, b, c];
    } else {
      DecodeFront(w, x, y, z, rest);
    }
  }

  /** Encoding works a group of three octets at a time. */
  lemma EncodeFront(bs: seq<byte>)
    requires |bs| >= 3
    ensures Encode(bs) == EncodeTriple(bs[0], bs[1], bs[2]) + Encode(bs[3..])
  {
  }

  lemma DecodeEncodeLong(bs: seq<byte>)
    requires |bs| >= 3
    requires Decode(Encode(bs[3..])) == Some(bs[3..])
    ensures Decode(Encode(bs)) == Some(bs)
  {
    SplitThree(bs);
    EncodeFront(bs);
    DecodeEncodeGroup(bs[0], bs[1], bs[2], Encode(bs[3..]), bs[3..]);
  }

  lemma SplitThree(bs: seq<byte>)
    requires |bs| >= 3
    ensures [bs[0], bs[1], bs[2]] + bs[3..] == bs
  {
  }

  lemma DecodeEncodeShort(bs: seq<byte>)
    requires |bs| < 3
    ensures Decode(Encode(bs)) == Some(bs)
  {
    if |bs| == 1 {
      SplitShort(bs);
      DecodeEncodeOne(bs[0]);
    } else if |bs| == 2 {
      SplitShort(bs);
      DecodeEncodeTwo(bs[0], bs[1]);
    }
  }

  lemma SplitShort(bs: seq<byte>)
    requires 1 <= |bs| <= 2
    ensures |bs| == 1 ==> bs == [bs[0]]
    ensures |bs| == 2 ==> bs == [bs[0], bs[1]]
  {
  }

  /** Decoding undoes encoding, for every octet string. */
  lemma {:induction false} DecodeEncode(bs: seq<byte>)
    ensures Decode(Encode(bs)) == Some(bs)
    decreases |bs|
  {
    if |bs| < 3 {
      DecodeEncodeShort(bs);
    } else {
      DecodeEncode(bs[3..]);
      DecodeEncodeLong(bs);
    }
  }
}

=== FILE: bytes.dfy ===
/** Octets, as `bytes` objects hold them. */
module Bytes {
  type byte = x: int | 0 <= x < 256
}

=== FILE: classifier.dfy ===
/** `handle_errors`: the message logged for a status that exhausted its
    retries. Classification only logs; it never raises. */
module Classifier {
  import opened Wrappers
  import Numerals

  const GenericPrefix: string := "HTTP Error "

  /** The statuses with a message of their own. */
  const NamedStatuses: set<int> := {400, 401, 403, 404, 500}

  /** The logged message for a status: a fixed sentence for 400, 401, 403,
      404 and 500, and `"HTTP Error <status>."` for every other status. */
  function HandleErrors(status: int): string {
    if status == 400 then "Bad Request - Missing parameters."
    else if status == 401 then "Unauthorized - Authentication failed."
    else if status == 403 then "Forbidden - User does not have access."
    else if status == 404 then "Not Found - Resource not found."
    else if status == 500 then "Internal Server Error."
    else GenericPrefix + Numerals.IntToString(status) + "."
  }

  /** A message of the generic form names its status: reading the number
      between the prefix and the final period gives the status back. */
  lemma GenericMessageNamesStatus(status: int)
    requires status !in NamedStatuses
    ensures |HandleErrors(status)| > |GenericPrefix| + 1
    ensures HandleErrors(status)[..|GenericPrefix|] == GenericPrefix
    ensures Numerals.ParseInt(HandleErrors(status)[|GenericPrefix|..|HandleErrors(status)| - 1]) == Some(status)
  {
    var m := HandleErrors(status);
    assert m[|GenericPrefix|..|m| - 1] == Numerals.IntToString(status);
    Numerals.ParseIntToString(status);
  }

  /** Only the statuses without a message of their own get the generic prefix. */
  lemma GenericPrefixExactlyUnnamed(status: int)
    ensures status !in NamedStatuses <==>
      (|HandleErrors(status)| >= |GenericPrefix| && HandleErrors(status)[..|GenericPrefix|] == GenericPrefix)
  {
    var m := HandleErrors(status);
    if status in NamedStatuses {
      assert m[0] != GenericPrefix[0];
    } else {
      GenericMessageNamesStatus(status);
    }
  }

  /** The five sentences already differ in their first letter. */
  lemma NamedMessagesDistinct(a: int, b: int)
    requires a in NamedStatuses && b in NamedStatuses
    requires HandleErrors(a) == HandleErrors(b)
    ensures a == b
  {
    var initial := HandleErrors(a)[0];
    assert initial == HandleErrors(b)[0];
    if a == 400 {
      assert initial == 'B';
    } else if a == 401 {
      assert initial == 'U';
    } else if a == 403 {
      assert initial == 'F';
    } else if a == 404 {
      assert initial == 'N';
    } else {
      assert initial == 'I';
    }
  }

  lemma GenericMessagesDistinct(a: int, b: int)
    requires a !in NamedStatuses && b !in NamedStatuses
    requires HandleErrors(a) == HandleErrors(b)
    ensures a == b
  {
    GenericMessageNamesStatus(a);
    GenericMessageNamesStatus(b);
    var m := HandleErrors(a);
    assert Some(a) == Numerals.ParseInt(m[|GenericPrefix|..|m| - 1]) == Some(b);
  }

  /** Different statuses are logged with different messages, so the log
      identifies the status that ended the retries. */
  lemma HandleErrorsInjective(a: int, b: int)
    requires HandleErrors(a) == HandleErrors(b)
    ensures a == b
  {
    GenericPrefixExactlyUnnamed(a);
    GenericPrefixExactlyUnnamed(b);
    if a in NamedStatuses {
      NamedMessagesDistinct(a, b);
    } else {
      GenericMessagesDistinct(a, b);
    }
  }
}

=== FILE: errors.dfy ===
/** The exceptions a caller of the client can observe. */
module Errors {
  import opened Json

  datatype Error =
      /** Missing or empty credentials at construction (main.py:43). */
    | AuthenticationError
      /** The rate-limit gate refused the call before any exchange (main.py:54). */
    | RateLimitError
      /** Anything raised inside the request's `try` block, re-raised with the
          URL it was fetching (main.py:76). */
    | DataFetchError(url: Json)
      /** Python errors the pagination loop does not catch: `in` or a
          subscript on a value that does not support it. */
    | TypeError
    | KeyError(key: string)
      /** `.extend` on a value that is not a list. */
    | AttributeError
      /** The model's page budget ran out while the loop still had a link to
          follow; the source would keep looping. */
    | PagesExhausted
}

=== FILE: example.dfy ===
/** A worked example: a service whose `Orders` collection spans two linked
    pages, read through `get_data` as written and with the corrected loop. */
module OrdersExample {
  import opened Wrappers
  import opened Json
  import opened Errors
  import opened Executor
  import opened Pagination
  import opened Service

  /** Concrete data for a two-page read of `Orders`. */
  const ServiceRoot: string := "https://sap.example/odata"
  const FirstUrl: string := ServiceRoot + "/Orders"
  const SecondUrl: string := ServiceRoot + "/Orders?$skiptoken=1"

  function Order(id: int): Json {
    JObj([("id", JNum(id))])
  }

  const FirstPage: Json := JObj([(ValueKey, JArr([Order(1)])), (NextLink, JStr(SecondUrl))])
  const SecondPage: Json := JObj([(ValueKey, JArr([Order(2)]))])

  /** A server holding the two pages and answering 404 to anything else. */
  function TwoPageServer(client: Client): Server {
    (request: Request, k: nat) =>
      if request.verb == GET && request.url == FirstUrl && request.headers == client.headers && request.json == JNull
      then Response(StatusOk, None, Some(FirstPage))
      else if request.verb == GET && request.url == SecondUrl && request.headers == client.headers && request.json == JNull
      then Response(StatusOk, None, Some(SecondPage))
      else Response(404, None, None)
  }

  lemma TwoPageChain(client: Client)
    ensures LinkedChain([FirstUrl, SecondUrl], [FirstPage, SecondPage])
    ensures PagesServed(TwoPageServer(client), client, [FirstUrl, SecondUrl], [FirstPage, SecondPage])
  {
    var urls := [FirstUrl, SecondUrl];
    var pages := [FirstPage, SecondPage];
    assert FirstUrl != SecondUrl by {
      assert |FirstUrl| != |SecondUrl|;
    }
    assert Lookup(FirstPage.fields, NextLink) == Some(JStr(SecondUrl));
    assert Get(SecondPage.fields, NextLink) == JNull by {
      assert Keys(SecondPage.fields) == [ValueKey];
      assert NextLink != ValueKey;
    }
  }

  lemma TwoPageItems()
    ensures AllItems([FirstPage, SecondPage]) == [Order(1), Order(2)]
  {
    var pages := [FirstPage, SecondPage];
    assert ItemsOf(FirstPage) == [Order(1)];
    assert ItemsOf(SecondPage) == [Order(2)];
    assert [FirstPage][..0] == [];
    assert AllItems([FirstPage]) == [Order(1)];
    assert pages[..1] == [FirstPage];
    assert AllItems(pages) == AllItems([FirstPage]) + ItemsOf(SecondPage);
  }

  /** The two-page read as written fails on the stored `None` link. */
  lemma TwoPageReadFails(client: Client, st: State, params: Option<Params>)
    requires client.serviceUrl == ServiceRoot
    requires GateOpen(st)
    ensures GetData(TwoPageServer(client), client, st, "Orders", params, 2).result == Failure(DataFetchError(JNull))
  {
    assert EndpointUrl(client, "Orders") == FirstUrl;
    TwoPageChain(client);
    PaginateChainAsWritten(TwoPageServer(client), client, st, [FirstUrl, SecondUrl], [FirstPage, SecondPage], params, 2);
  }

  /** With the loop corrected, the same read yields both orders, in page
      order, after two requests. */
  lemma TwoPageReadFixed(client: Client, st: State, params: Option<Params>)
    requires client.serviceUrl == ServiceRoot
    requires GateOpen(st)
    ensures var r := GetDataFixed(TwoPageServer(client), client, st, "Orders", params, 2);
      && r.result.Success? && r.result.value.JObj?
      && Lookup(r.result.value.fields, ValueKey) == Some(JArr([Order(1), Order(2)]))
      && |r.state.sent| == |st.sent| + 2
  {
    assert EndpointUrl(client, "Orders") == FirstUrl;
    TwoPageChain(client);
    TwoPageItems();
    PaginateChainFixed(TwoPageServer(client), client, st, [FirstUrl, SecondUrl], [FirstPage, SecondPage], params, 2);
  }
}

=== FILE: executor.dfy ===
/** `make_request`: the single chokepoint every call goes through. The HTTP
    session is replaced by a server oracle, `time.time()` by an explicit
    clock in the threaded state.

    Several helper lemmas below and in `Pagination` take a parameter that only
    names a term already fixed by a `requires` (`last == |st.sent| + retries`,
    `retries == rest + 1`, the state `next` after one exchange). Naming the
    term once lets each step of an induction refer to the same value, rather
    than to arithmetic forms of it that are equal only after calculation. */
module Executor {
  import opened Wrappers
  import opened Json
  import opened Errors
  import Numerals
  import Classifier

  datatype Method = GET | POST | PUT | DELETE

  type Headers = seq<(string, string)>

  /** Query parameters in the order the caller gave them. */
  type Params = seq<(string, string)>

  /** Everything handed to the transport for one exchange. `json == JNull`
      means no body, as `json=None` does for aiohttp. */
  datatype Request = Request(verb: Method, url: string, headers: Headers, params: Option<Params>, json: Json)

  /** What one exchange produced: a status with its `Retry-After` header and
      its body parsed as JSON (`None` when `response.json()` would raise), or a
      fault of the transport itself (connection error, the 10-second timeout). */
  datatype Response =
    | Response(status: int, retryAfter: Option<string>, body: Option<Json>)
    | TransportFault

  /** The server and network: the answer to a request, given how many
      exchanges the client has made before it. */
  type Server = (Request, nat) -> Response

  /** The parts of the client object fixed at construction. */
  datatype Client = Client(serviceUrl: string, headers: Headers)

  /** The parts that change: `rate_limit_reset`, the clock, every request
      sent so far (in order) and the messages `handle_errors` logged. */
  datatype State = State(rateLimitReset: int, now: int, sent: seq<Request>, log: seq<string>)

  datatype Reply<T> = Reply(result: Result<T, Error>, state: State)

  /** The `retries` default. */
  const DefaultRetries: nat := 3

  const StatusOk: int := 200
  const StatusTooManyRequests: int := 429

  /** A response that sends `make_request` round again: a status that is
      neither 200 nor 429. */
  predicate Retryable(r: Response) {
    r.Response? && r.status != StatusOk && r.status != StatusTooManyRequests
  }

  /** The gate of main.py:53: calls before `rate_limit_reset` are refused. */
  predicate GateOpen(st: State) {
    st.now >= st.rateLimitReset
  }

  /** The state of a freshly constructed client at time `now`. */
  function Initial(now: int): (st: State)
    ensures st.sent == [] && st.log == []
    ensures now >= 0 ==> GateOpen(st)
  {
    State(0, now, [], [])
  }

  /** `int(response.headers.get('Retry-After', 0))`: 0 when the header is
      absent, `None` when `int()` would raise. */
  function RetryAfterSeconds(header: Option<string>): Option<int> {
    match header
    case None => Some(0)
    case Some(text) => Numerals.ParseInt(text)
  }

  function RequestFor(client: Client, url: string, verb: Method, params: Option<Params>, json: Json): Request {
    Request(verb, url, client.headers, params, json)
  }

  /** Every request sent between `before` and `after` is the same request for `url`. */
  ghost predicate SameRequests(before: State, after: State, client: Client, url: Json, verb: Method, params: Option<Params>, json: Json) {
    && |before.sent| <= |after.sent|
    && after.sent[..|before.sent|] == before.sent
    && (|after.sent| > |before.sent| ==> url.JStr?)
    && forall i :: |before.sent| <= i < |after.sent| ==>
         after.sent[i] == RequestFor(client, url.s, verb, params, json)
  }

  /** `make_request(url, method, params, json, retries)`; `verb` is its `method`. */
  function MakeRequest(server: Server, client: Client, st: State, url: Json, verb: Method,
                       params: Option<Params>, json: Json, retries: nat): (r: Reply<Json>)
    decreases retries, 1
    ensures SameRequests(st, r.state, client, url, verb, params, json)
    ensures |r.state.sent| <= |st.sent| + retries + 1
    ensures r.result == Failure(RateLimitError) <==> !GateOpen(st)
    ensures !GateOpen(st) ==> r.state == st
    ensures r.result.Failure? && GateOpen(st) ==> r.result.error == DataFetchError(url)
    ensures GateOpen(st) && url.JStr? ==> |r.state.sent| > |st.sent|
    ensures r.result.Success? ==> Settled(server, st, r)
  {
    if !GateOpen(st) then Reply(Failure(RateLimitError), st)
    else Attempt(server, client, st, url, verb, params, json, retries)
  }

  /** How a successful call ended: its last exchange answered 200 with a
      JSON body, which is the result, or it answered a retryable status with
      no retries left, so the result is `None` and the status was logged. */
  ghost predicate Settled(server: Server, st: State, r: Reply<Json>)
    requires r.result.Success?
  {
    && |r.state.sent| > |st.sent|
    && var k := |r.state.sent| - 1;
       var last := server(r.state.sent[k], k);
       || (last.Response? && last.status == StatusOk && last.body == Some(r.result.value)
           && r.state.log == st.log)
       || (Retryable(last) && r.result.value == JNull
           && r.state.log == st.log + [Classifier.HandleErrors(last.status)])
  }

  /** The `try` block of main.py:56-76: one exchange and what follows from
      its status. Everything raised in it, including the `RateLimitError`
      of the 429 branch and any failure of the retry, leaves as
      `DataFetchError`. */
  function Attempt(server: Server, client: Client, st: State, url: Json, verb: Method,
                   params: Option<Params>, json: Json, retries: nat): (r: Reply<Json>)
    requires GateOpen(st)
    decreases retries, 0
    ensures SameRequests(st, r.state, client, url, verb, params, json)
    ensures |r.state.sent| <= |st.sent| + retries + 1
    ensures r.result.Failure? ==> r.result.error == DataFetchError(url)
    ensures url.JStr? ==> |r.state.sent| > |st.sent|
    ensures r.result.Success? ==> Settled(server, st, r)
  {
    if !url.JStr? then Reply(Failure(DataFetchError(url)), st)
    else
      var request := RequestFor(client, url.s, verb, params, json);
      var sent := st.(sent := st.sent + [request]);
      match server(request, |st.sent|)
      case TransportFault => Reply(Failure(DataFetchError(url)), sent)
      case Response(status, retryAfter, body) =>
        if status == StatusTooManyRequests then
          match RetryAfterSeconds(retryAfter)
          case None => Reply(Failure(DataFetchError(url)), sent)
          case Some(seconds) => Reply(Failure(DataFetchError(url)), sent.(rateLimitReset := st.now + seconds))
        else if status != StatusOk then
          if retries > 0 then
            var inner := MakeRequest(server, client, sent.(now := st.now + 1), url, verb, params, json, retries - 1);
            if inner.result.Failure? then Reply(Failure(DataFetchError(url)), inner.state) else inner
          else
            Reply(Success(JNull), sent.(log := st.log + [Classifier.HandleErrors(status)]))
        else
          match body
          case None => Reply(Failure(DataFetchError(url)), sent)
          case Some(j) => Reply(Success(j), sent)
  }

  /** A 429 is not retried: the call issues one request, records
      `rate_limit_reset = now + Retry-After`, and the caller sees the
      `DataFetchError` the handler turns the `RateLimitError` into. */
  lemma TooManyRequestsSetsReset(server: Server, client: Client, st: State, url: string, verb: Method,
                                 params: Option<Params>, json: Json, retries: nat, seconds: int)
    requires GateOpen(st)
    requires var answer := server(RequestFor(client, url, verb, params, json), |st.sent|);
      answer.Response? && answer.status == StatusTooManyRequests && RetryAfterSeconds(answer.retryAfter) == Some(seconds)
    ensures var r := MakeRequest(server, client, st, JStr(url), verb, params, json, retries);
      && r.result == Failure(DataFetchError(JStr(url)))
      && r.state.rateLimitReset == st.now + seconds
      && |r.state.sent| == |st.sent| + 1
  {
  }

  /** A 429 after `failures` retryable answers ends the call the same way:
      `failures + 1` exchanges, the clock `failures` seconds on, and the
      reset time set from the clock at the 429. */
  lemma {:induction false} TooManyRequestsAfterRetries(server: Server, client: Client, st: State, url: string, verb: Method,
                                                       params: Option<Params>, json: Json, retries: nat, failures: nat, seconds: int)
    requires GateOpen(st)
    requires failures <= retries
    requires forall k :: |st.sent| <= k < |st.sent| + failures ==>
      Retryable(server(RequestFor(client, url, verb, params, json), k))
    requires var answer := server(RequestFor(client, url, verb, params, json), |st.sent| + failures);
      answer.Response? && answer.status == StatusTooManyRequests && RetryAfterSeconds(answer.retryAfter) == Some(seconds)
    ensures var r := MakeRequest(server, client, st, JStr(url), verb, params, json, retries);
      && r.result == Failure(DataFetchError(JStr(url)))
      && r.state.rateLimitReset == st.now + failures + seconds
      && r.state.now == st.now + failures
      && |r.state.sent| == |st.sent| + failures + 1
    decreases failures
  {
    if failures > 0 {
      var request := RequestFor(client, url, verb, params, json);
      var next := st.(sent := st.sent + [request], now := st.now + 1);
      TooManyRequestsAfterRetries(server, client, next, url, verb, params, json, retries - 1, failures - 1, seconds);
    }
  }

  /** After a 429 with `Retry-After: s`, following `failures` retryable
      answers or none, every later call made before the reset, to any URL,
      is refused by the gate without a request. */
  lemma TooManyRequestsShutsGate(server: Server, client: Client, st: State, url: string, verb: Method,
                                 params: Option<Params>, json: Json, retries: nat, failures: nat, seconds: int,
                                 later: int, url2: Json, verb2: Method, params2: Option<Params>, json2: Json, retries2: nat)
    requires GateOpen(st)
    requires failures <= retries
    requires forall k :: |st.sent| <= k < |st.sent| + failures ==>
      Retryable(server(RequestFor(client, url, verb, params, json), k))
    requires var answer := server(RequestFor(client, url, verb, params, json), |st.sent| + failures);
      answer.Response? && answer.status == StatusTooManyRequests && RetryAfterSeconds(answer.retryAfter) == Some(seconds)
    requires later < st.now + failures + seconds
    ensures var after := MakeRequest(server, client, st, JStr(url), verb, params, json, retries).state.(now := later);
      MakeRequest(server, client, after, url2, verb2, params2, json2, retries2) == Reply(Failure(RateLimitError), after)
  {
    TooManyRequestsAfterRetries(server, client, st, url, verb, params, json, retries, failures, seconds);
  }

  /** A 429 whose `Retry-After` is not an integer makes `int()` raise inside
      the `try`: `DataFetchError`, and the reset time is left alone. */
  lemma MalformedRetryAfterKeepsReset(server: Server, client: Client, st: State, url: string, verb: Method,
                                      params: Option<Params>, json: Json, retries: nat)
    requires GateOpen(st)
    requires var answer := server(RequestFor(client, url, verb, params, json), |st.sent|);
      answer.Response? && answer.status == StatusTooManyRequests && RetryAfterSeconds(answer.retryAfter) == None
    ensures var r := MakeRequest(server, client, st, JStr(url), verb, params, json, retries);
      && r.result == Failure(DataFetchError(JStr(url)))
      && r.state.rateLimitReset == st.rateLimitReset
      && |r.state.sent| == |st.sent| + 1
  {
  }

  /** A transport fault or timeout is not retried. */
  lemma TransportFaultNotRetried(server: Server, client: Client, st: State, url: string, verb: Method,
                                 params: Option<Params>, json: Json, retries: nat)
    requires GateOpen(st)
    requires server(RequestFor(client, url, verb, params, json), |st.sent|) == TransportFault
    ensures var r := MakeRequest(server, client, st, JStr(url), verb, params, json, retries);
      && r.result == Failure(DataFetchError(JStr(url)))
      && r.state.rateLimitReset == st.rateLimitReset
      && |r.state.sent| == |st.sent| + 1
  {
  }

  /** A call whose first `failures` exchanges answer a retryable status and
      whose next answers 200 returns that body, after exactly
      `failures + 1` exchanges, provided the retry budget covers them. */
  lemma {:induction false} RetriesUntilOk(server: Server, client: Client, st: State, url: string, verb: Method,
                                          params: Option<Params>, json: Json, retries: nat, failures: nat, body: Json)
    requires GateOpen(st)
    requires failures <= retries
    requires forall k :: |st.sent| <= k < |st.sent| + failures ==>
      Retryable(server(RequestFor(client, url, verb, params, json), k))
    requires var answer := server(RequestFor(client, url, verb, params, json), |st.sent| + failures);
      answer.Response? && answer.status == StatusOk && answer.body == Some(body)
    ensures var r := MakeRequest(server, client, st, JStr(url), verb, params, json, retries);
      && r.result == Success(body)
      && |r.state.sent| == |st.sent| + failures + 1
      && r.state.log == st.log
      && r.state.rateLimitReset == st.rateLimitReset
      && r.state.now == st.now + failures
    decreases failures
  {
    if failures > 0 {
      var request := RequestFor(client, url, verb, params, json);
      var next := st.(sent := st.sent + [request], now := st.now + 1);
      RetriesUntilOk(server, client, next, url, verb, params, json, retries - 1, failures - 1, body);
    }
  }

  /** A retryable answer with retries left hands the call to the retry,
      one second later; a successful retry is the call's result. */
  lemma RetryPassesThroughSuccess(server: Server, client: Client, st: State, url: string, verb: Method,
                                  params: Option<Params>, json: Json, retries: nat, next: State, rest: nat)
    requires GateOpen(st)
    requires Retryable(server(RequestFor(client, url, verb, params, json), |st.sent|))
    requires next == st.(sent := st.sent + [RequestFor(client, url, verb, params, json)], now := st.now + 1)
    requires retries == rest + 1
    requires MakeRequest(server, client, next, JStr(url), verb, params, json, rest).result.Success?
    ensures MakeRequest(server, client, st, JStr(url), verb, params, json, retries)
         == MakeRequest(server, client, next, JStr(url), verb, params, json, rest)
  {
  }

  /** With no retries left, a retryable answer is logged and the call
      returns `None`. */
  lemma LastAttemptLogs(server: Server, client: Client, st: State, url: string, verb: Method,
                        params: Option<Params>, json: Json)
    requires GateOpen(st)
    requires Retryable(server(RequestFor(client, url, verb, params, json), |st.sent|))
    ensures var r := MakeRequest(server, client, st, JStr(url), verb, params, json, 0);
      && r.result == Success(JNull)
      && |r.state.sent| == |st.sent| + 1
      && r.state.log == st.log + [Classifier.HandleErrors(server(RequestFor(client, url, verb, params, json), |st.sent|).status)]
  {
  }

  /** A call that never sees 200 or 429 makes exactly `retries + 1`
      exchanges, logs the classification of the last status once, and
      returns `None` instead of raising. */
  lemma ExhaustedRetries(server: Server, client: Client, st: State, url: string, verb: Method,
                         params: Option<Params>, json: Json, retries: nat)
    requires GateOpen(st)
    requires forall k :: |st.sent| <= k <= |st.sent| + retries ==>
      Retryable(server(RequestFor(client, url, verb, params, json), k))
    ensures var r := MakeRequest(server, client, st, JStr(url), verb, params, json, retries);
      && r.result == Success(JNull)
      && |r.state.sent| == |st.sent| + retries + 1
      && r.state.log == st.log + [Classifier.HandleErrors(
           server(RequestFor(client, url, verb, params, json), |st.sent| + retries).status)]
  {
    ExhaustedUntil(server, client, st, url, verb, params, json, retries, |st.sent| + retries);
  }

  /** `ExhaustedRetries` with the index of the last exchange named, so that
      every step speaks of the same final answer. */
  lemma {:induction false} ExhaustedUntil(server: Server, client: Client, st: State, url: string, verb: Method,
                                          params: Option<Params>, json: Json, retries: nat, last: nat)
    requires GateOpen(st)
    requires last == |st.sent| + retries
    requires forall k :: |st.sent| <= k <= last ==>
      Retryable(server(RequestFor(client, url, verb, params, json), k))
    ensures var r := MakeRequest(server, client, st, JStr(url), verb, params, json, retries);
      && r.result == Success(JNull)
      && |r.state.sent| == last + 1
      && r.state.log == st.log + [Classifier.HandleErrors(server(RequestFor(client, url, verb, params, json), last).status)]
    decreases retries
  {
    var request := RequestFor(client, url, verb, params, json);
    var next := st.(sent := st.sent + [request], now := st.now + 1);
    if retries > 0 {
      var rest: nat := retries - 1;
      ExhaustedUntil(server, client, next, url, verb, params, json, rest, last);
      RetryPassesThroughSuccess(server, client, st, url, verb, params, json, retries, next, rest);
    } else {
      LastAttemptLogs(server, client, st, url, verb, params, json);
    }
  }

  /** A server that never sends a negative `Retry-After`. */
  predicate NonNegativeRetryAfter(answer: Response) {
    (answer.Response? && answer.status == StatusTooManyRequests && RetryAfterSeconds(answer.retryAfter).Some?)
    ==> RetryAfterSeconds(answer.retryAfter).value >= 0
  }

  /** The reset time never moves back and the clock never runs back, as
      long as the server sends no negative `Retry-After`: a 429 arrives only
      after the gate let the call through, so `now + Retry-After` is at
      least the old reset. */
  lemma {:induction false} ResetNeverMovesBack(server: Server, client: Client, st: State, url: Json, verb: Method,
                                               params: Option<Params>, json: Json, retries: nat)
    requires forall request, k :: NonNegativeRetryAfter(server(request, k))
    ensures MakeRequest(server, client, st, url, verb, params, json, retries).state.rateLimitReset >= st.rateLimitReset
    ensures MakeRequest(server, client, st, url, verb, params, json, retries).state.now >= st.now
    decreases retries
  {
    if GateOpen(st) && url.JStr? {
      var request := RequestFor(client, url.s, verb, params, json);
      var answer := server(request, |st.sent|);
      assert NonNegativeRetryAfter(answer);
      if Retryable(answer) && retries > 0 {
        var next := st.(sent := st.sent + [request], now := st.now + 1);
        ResetNeverMovesBack(server, client, next, url, verb, params, json, retries - 1);
      }
    }
  }
}

=== FILE: json.dfy ===
/** JSON values as the client sees them after `response.json()`: Python's
    `None`, `bool`, `int`, `str`, `list` and insertion-ordered `dict`. */
module Json {
  import opened Wrappers

  /** An object is an association list, so that Python's dict insertion order
      is part of the value. */
  datatype Json =
    | JNull
    | JBool(b: bool)
    | JNum(n: int)
    | JStr(s: string)
    | JArr(items: seq<Json>)
    | JObj(fields: seq<(string, Json)>)

  type Fields = seq<(string, Json)>

  /** The keys of an object, in insertion order. */
  function Keys(f: Fields): (ks: seq<string>)
    ensures |ks| == |f|
    ensures forall i :: 0 <= i < |f| ==> ks[i] == f[i].0
  {
    if f == [] then [] else [f[0].0] + Keys(f[1..])
  }

  /** `d.get(k)`: the value stored under `k`, if any. */
  function Lookup(f: Fields, k: string): (r: Option<Json>)
    ensures r.Some? <==> k in Keys(f)
  {
    if f == [] then None
    else if f[0].0 == k then Some(f[0].1)
    else Lookup(f[1..], k)
  }

  /** `d[k] = v`: overwrite the value of an existing key in place, or add the
      key at the end. */
  function Update(f: Fields, k: string, v: Json): (r: Fields)
    ensures forall k' :: k' != k ==> Lookup(r, k') == Lookup(f, k')
    ensures Keys(r) == if k in Keys(f) then Keys(f) else Keys(f) + [k]
  {
    if f == [] then [(k, v)]
    else if f[0].0 == k then
      var r := [(k, v)] + f[1..];
      assert r[1..] == f[1..];
      r
    else
      var r := [f[0]] + Update(f[1..], k, v);
      assert r[1..] == Update(f[1..], k, v);
      r
  }

  /** After `d[k] = v`, `d.get(k)` is `v`. */
  lemma {:induction false} UpdateStores(f: Fields, k: string, v: Json)
    ensures Lookup(Update(f, k, v), k) == Some(v)
  {
    if f != [] && f[0].0 != k {
      UpdateStores(f[1..], k, v);
    }
  }

  /** A well-formed Python dict: no key occurs twice. */
  predicate DistinctKeys(f: Fields) {
    forall i, j :: 0 <= i < j < |f| ==> f[i].0 != f[j].0
  }

  /** Assignment through `d[k] = v` keeps a dict a dict. */
  lemma {:induction false} UpdateKeepsDistinct(f: Fields, k: string, v: Json)
    requires DistinctKeys(f)
    ensures DistinctKeys(Update(f, k, v))
  {
    var r := Update(f, k, v);
    var ks := Keys(r);
    assert ks == if k in Keys(f) then Keys(f) else Keys(f) + [k];
    forall i, j | 0 <= i < j < |r|
      ensures r[i].0 != r[j].0
    {
      assert r[i].0 == ks[i] && r[j].0 == ks[j];
      if j == |f| {
        assert k !in Keys(f);
        assert ks[i] == Keys(f)[i];
      } else {
        assert ks[i] == Keys(f)[i] && ks[j] == Keys(f)[j];
        assert Keys(f)[i] == f[i].0 && Keys(f)[j] == f[j].0;
      }
    }
  }
}

=== FILE: numerals.dfy ===
/** Decimal integers as Python writes them with `str(n)` (inside the f-string
    `f"HTTP Error {status}."`) and reads them with `int(text)` (for the
    `Retry-After` header). */
module Numerals {
  import opened Wrappers

  predicate IsDigit(c: char) {
    '0' <= c <= '9'
  }

  function DigitChar(d: int): (c: char)
    requires 0 <= d < 10
    ensures IsDigit(c)
  {
    ('0' as int + d) as char
  }

  function DigitValue(c: char): int {
    c as int - '0' as int
  }

  /** `str(n)` for a non-negative `n`: shortest decimal form, no leading zero. */
  function NatToString(n: nat): (s: string)
    ensures |s| > 0
    ensures forall i :: 0 <= i < |s| ==> IsDigit(s[i])
    ensures |s| > 1 ==> s[0] != '0'
  {
    if n < 10 then [DigitChar(n)] else NatToString(n / 10) + [DigitChar(n % 10)]
  }

  /** `str(n)` for any integer. */
  function IntToString(n: int): string {
    if n < 0 then "-" + NatToString(-n) else NatToString(n)
  }

  /** The white space `int()` strips around its argument. Below U+007F these
      are only U+0009 to U+000D and the space: the separators U+001C to U+001F,
      although `str.isspace` holds for them, stay in the text and make it
      malformed. Above, every character for which `str.isspace` holds counts,
      as `int()` turns each into a space first: U+0085, U+00A0, U+1680,
      U+2000 to U+200A, U+2028, U+2029, U+202F, U+205F and U+3000. */
  predicate IsSpace(c: char) {
    || '\t' <= c <= '\r'
    || c == ' '
    || c == '\U{85}' || c == '\U{A0}' || c == '\U{1680}'
    || '\U{2000}' <= c <= '\U{200A}'
    || c == '\U{2028}' || c == '\U{2029}' || c == '\U{202F}' || c == '\U{205F}' || c == '\U{3000}'
  }

  function TrimLeft(s: string): string {
    if |s| > 0 && IsSpace(s[0]) then TrimLeft(s[1..]) else s
  }

  function TrimRight(s: string): string {
    if |s| > 0 && IsSpace(s[|s| - 1]) then TrimRight(s[..|s| - 1]) else s
  }

  /** A run of digits in which single underscores may separate two digits,
      as `int()` accepts them (`"1_000"`). */
  predicate DigitGroups(s: string) {
    && |s| > 0
    && forall i {:trigger s[i]} :: 0 <= i < |s| ==>
         || IsDigit(s[i])
         || (s[i] == '_' && 0 < i < |s| - 1 && IsDigit(s[i - 1]) && IsDigit(s[i + 1]))
  }

  /** The number a run of digits denotes; underscores contribute nothing. */
  function DigitsValue(s: string): nat {
    if s == [] then 0
    else if IsDigit(s[|s| - 1]) then DigitsValue(s[..|s| - 1]) * 10 + DigitValue(s[|s| - 1])
    else DigitsValue(s[..|s| - 1])
  }

  /** `int(text)` on a string: surrounding white space, an optional sign, then
      digit groups; anything else is Python's `ValueError`, here `None`. */
  function ParseInt(text: string): Option<int> {
    ParseSigned(TrimRight(TrimLeft(text)))
  }

  /** `int()` once the white space is stripped. */
  function ParseSigned(t: string): Option<int> {
    if |t| > 0 && (t[0] == '-' || t[0] == '+') then
      if DigitGroups(t[1..]) then
        var v: int := DigitsValue(t[1..]);
        Some(if t[0] == '-' then -v else v)
      else None
    else if DigitGroups(t) then Some(DigitsValue(t))
    else None
  }

  lemma {:induction false} NatToStringValue(n: nat)
    ensures DigitsValue(NatToString(n)) == n
  {
    var s := NatToString(n);
    if n >= 10 {
      NatToStringValue(n / 10);
      assert s[..|s| - 1] == NatToString(n / 10);
    }
  }

  lemma TrimmedAlready(s: string)
    requires |s| > 0 && !IsSpace(s[0]) && !IsSpace(s[|s| - 1])
    ensures TrimRight(TrimLeft(s)) == s
  {
  }

  /** `int()` ignores white space before the number. */
  lemma LeadingSpaceIgnored(c: char, text: string)
    requires IsSpace(c)
    ensures ParseInt([c] + text) == ParseInt(text)
  {
    assert ([c] + text)[1..] == text;
  }

  /** Trimming on the right keeps a first character that is not white space. */
  lemma {:induction false} TrimRightKeepsFirst(s: string)
    requires |s| > 0 && !IsSpace(s[0])
    ensures |TrimRight(s)| > 0 && TrimRight(s)[0] == s[0]
    decreases |s|
  {
    if IsSpace(s[|s| - 1]) {
      TrimRightKeepsFirst(s[..|s| - 1]);
    }
  }

  /** A text starting with one of the separators U+001C to U+001F is
      malformed (`int("\x1f7")` raises): `str.isspace` holds for them, but
      `int()` neither strips them nor reads them as digits. */
  lemma UnitSeparatorRejected(c: char, text: string)
    requires '\U{1C}' <= c <= '\U{1F}'
    ensures ParseInt([c] + text) == None
  {
    var s := [c] + text;
    assert TrimLeft(s) == s;
    TrimRightKeepsFirst(s);
    var t := TrimRight(s);
    assert !IsDigit(t[0]) && t[0] != '_';
    assert !DigitGroups(t);
  }

  lemma AllDigitsAreGroups(digits: string)
    requires |digits| > 0 && forall i :: 0 <= i < |digits| ==> IsDigit(digits[i])
    ensures DigitGroups(digits)
  {
  }

  lemma NegativeSigned(t: string)
    requires |t| > 0 && t[0] == '-' && DigitGroups(t[1..])
    ensures var v: int := DigitsValue(t[1..]); ParseSigned(t) == Some(-v)
  {
  }

  /** A plain run of digits reads as its value. */
  lemma ParseDigits(digits: string)
    requires |digits| > 0 && forall i :: 0 <= i < |digits| ==> IsDigit(digits[i])
    ensures ParseInt(digits) == Some(DigitsValue(digits))
  {
    AllDigitsAreGroups(digits);
    TrimmedAlready(digits);
  }

  /** A minus sign before a run of digits reads as the negated value. */
  lemma ParseNegatedDigits(digits: string)
    requires |digits| > 0 && forall i :: 0 <= i < |digits| ==> IsDigit(digits[i])
    ensures var v: int := DigitsValue(digits); ParseInt("-" + digits) == Some(-v)
  {
    var s := "-" + digits;
    AllDigitsAreGroups(digits);
    assert s[1..] == digits;
    NegativeSigned(s);
    assert s[|s| - 1] == digits[|digits| - 1];
    TrimmedAlready(s);
  }

  /** Reading back what `str` wrote gives the same integer: `int(str(n)) == n`. */
  lemma ParseIntToString(n: int)
    ensures ParseInt(IntToString(n)) == Some(n)
  {
    if n < 0 {
      var m: nat := -n;
      NatToStringValue(m);
      ParseNegatedDigits(NatToString(m));
    } else {
      NatToStringValue(n);
      ParseDigits(NatToString(n));
    }
  }

  /** Different integers print differently. */
  lemma IntToStringInjective(a: int, b: int)
    requires IntToString(a) == IntToString(b)
    ensures a == b
  {
    ParseIntToString(a);
    ParseIntToString(b);
  }
}

=== FILE: pagination.dfy ===
/** `handle_pagination`: fetch the first page, then follow
    `@odata.nextLink`, appending each page's `value` items. The loop is
    bounded by a page budget (`fuel`) because the server decides how many
    pages there are. */
module Pagination {
  import opened Wrappers
  import opened Json
  import opened Errors
  import opened Executor

  const NextLink: string := "@odata.nextLink"
  const ValueKey: string := "value"

  /** Python's `needle in hay` on two strings. */
  function IsSubstring(needle: string, hay: string): bool
    decreases |hay|
  {
    if |hay| < |needle| then false
    else hay[..|needle|] == needle || (|hay| > 0 && IsSubstring(needle, hay[1..]))
  }

  /** Python's `key in data` for a string key: a dict tests its keys, a list
      its elements, a string its substrings; `None`, numbers and booleans
      raise `TypeError`. */
  function Contains(data: Json, key: string): Result<bool, Error> {
    match data
    case JObj(fields) => Success(key in Keys(fields))
    case JArr(items) => Success(JStr(key) in items)
    case JStr(s) => Success(IsSubstring(key, s))
    case _ => Failure(TypeError)
  }

  /** Python's `data[key]` for a string key: only a dict accepts it. */
  function Subscript(data: Json, key: string): (r: Result<Json, Error>)
    ensures r.Success? <==> data.JObj? && key in Keys(data.fields)
    ensures r.Success? ==> Lookup(data.fields, key) == Some(r.value)
    ensures r.Failure? ==> r.error == (if data.JObj? then KeyError(key) else TypeError)
  {
    match data
    case JObj(fields) =>
      (match Lookup(fields, key)
       case Some(v) => Success(v)
       case None => Failure(KeyError(key)))
    case _ => Failure(TypeError)
  }

  /** `items.extend(arg)`: a list adds its elements, a string its characters,
      a dict its keys; anything else is not iterable. */
  function Extend(items: seq<Json>, arg: Json): (r: Result<seq<Json>, Error>)
    ensures r.Failure? <==> arg.JNull? || arg.JBool? || arg.JNum?
    ensures r.Failure? ==> r.error == TypeError
    ensures r.Success? ==> |r.value| >= |items| && r.value[..|items|] == items
    ensures arg.JArr? ==> r == Success(items + arg.items)
    ensures arg.JStr? ==> r == Success(items + Characters(arg.s))
    ensures arg.JObj? ==> r == Success(items + KeyStrings(arg.fields))
  {
    match arg
    case JArr(more) => Success(items + more)
    case JStr(s) => Success(items + Characters(s))
    case JObj(fields) => Success(items + KeyStrings(fields))
    case _ => Failure(TypeError)
  }

  /** Iterating a string: its one-character strings. */
  function Characters(s: string): (r: seq<Json>)
    ensures |r| == |s|
    ensures forall i :: 0 <= i < |s| ==> r[i] == JStr([s[i]])
  {
    if s == [] then [] else [JStr([s[0]])] + Characters(s[1..])
  }

  /** Iterating a dict: its keys in insertion order. */
  function KeyStrings(fields: Fields): (r: seq<Json>)
    ensures |r| == |fields|
    ensures forall i :: 0 <= i < |fields| ==> r[i] == JStr(fields[i].0)
  {
    if fields == [] then [] else [JStr(fields[0].0)] + KeyStrings(fields[1..])
  }

  /** `page.get(key)` on a dict: the stored value, or `None`. */
  function Get(fields: Fields, key: string): Json {
    match Lookup(fields, key)
    case Some(v) => v
    case None => JNull
  }

  /** How the loop fetches a linked page: `make_request(link)` with the
      defaults, GET, no parameters, no body, three retries. */
  type Fetch = (State, Json) -> Reply<Json>

  function FetchPage(server: Server, client: Client): Fetch {
    (st: State, link: Json) => MakeRequest(server, client, st, link, GET, None, JNull, DefaultRetries)
  }

  /** The body of the loop, main.py:85-87: fetch the linked page, extend the
      accumulated `value` list with its `value`, and copy its link (or `None`)
      into the accumulator. */
  function Step(fetch: Fetch, st: State, data: Json): (r: Reply<Json>)
    ensures r.result.Success? ==>
      && data.JObj? && r.result.value.JObj?
      && Keys(r.result.value.fields) == Keys(data.fields)
      && Lookup(r.result.value.fields, NextLink).Some?
  {
    match Subscript(data, NextLink)
    case Failure(e) => Reply(Failure(e), st)
    case Success(link) =>
      var page := fetch(st, link);
      match page.result
      case Failure(e) => Reply(Failure(e), page.state)
      case Success(next) => Reply(Merge(data, next), page.state)
  }

  /** main.py:86-87 once the next page is in hand. */
  function Merge(data: Json, next: Json): (r: Result<Json, Error>)
    requires data.JObj? && NextLink in Keys(data.fields)
    ensures r.Success? ==>
      && r.value.JObj?
      && Keys(r.value.fields) == Keys(data.fields)
      && Lookup(r.value.fields, NextLink).Some?
  {
    match Subscript(data, ValueKey)
    case Failure(e) => Failure(e)
    case Success(current) =>
      if !current.JArr? then Failure(AttributeError)
      else
        match Subscript(next, ValueKey)
        case Failure(e) => Failure(e)
        case Success(more) =>
          match Extend(current.items, more)
          case Failure(e) => Failure(e)
          case Success(items) =>
            var extended := Update(data.fields, ValueKey, JArr(items));
            Success(JObj(Update(extended, NextLink, Get(next.fields, NextLink))))
  }

  /** The loop test. `KeyPresent` is the source's `"@odata.nextLink" in data`
      (main.py:84); `LinkNotNull` also stops at a link that is `None`, which
      is what the loop is evidently meant to do. */
  datatype Condition = KeyPresent | LinkNotNull

  function HasNextPage(condition: Condition, data: Json): Result<bool, Error> {
    match Contains(data, NextLink)
    case Failure(e) => Failure(e)
    case Success(present) =>
      Success(present && (condition == LinkNotNull ==> !(data.JObj? && Lookup(data.fields, NextLink) == Some(JNull))))
  }

  /** The loop test on a dict looks at the link key only. */
  lemma HasNextPageOfObject(condition: Condition, fields: Fields)
    ensures HasNextPage(condition, JObj(fields))
         == Success(NextLink in Keys(fields) && (condition == LinkNotNull ==> Get(fields, NextLink) != JNull))
  {
  }

  /** The `while` loop of main.py:84-87, with at most `fuel` iterations. */
  function Loop(fetch: Fetch, st: State, data: Json, condition: Condition, fuel: nat): (r: Reply<Json>)
    decreases fuel, 0
  {
    match HasNextPage(condition, data)
    case Failure(e) => Reply(Failure(e), st)
    case Success(false) => Reply(Success(data), st)
    case Success(true) =>
      if fuel == 0 then Reply(Failure(PagesExhausted), st)
      else Continue(fetch, Step(fetch, st, data), condition, fuel - 1)
  }

  /** After one iteration: stop on its exception, otherwise test again. */
  function Continue(fetch: Fetch, step: Reply<Json>, condition: Condition, fuel: nat): (r: Reply<Json>)
    decreases fuel, 1
  {
    match step.result
    case Failure(_) => step
    case Success(next) => Loop(fetch, step.state, next, condition, fuel)
  }

  lemma LoopStopsWhenNoNextPage(fetch: Fetch, st: State, data: Json, condition: Condition, fuel: nat)
    requires HasNextPage(condition, data) == Success(false)
    ensures Loop(fetch, st, data, condition, fuel) == Reply(Success(data), st)
  {
  }

  lemma LoopOutOfFuel(fetch: Fetch, st: State, data: Json, condition: Condition)
    requires HasNextPage(condition, data) == Success(true)
    ensures Loop(fetch, st, data, condition, 0) == Reply(Failure(PagesExhausted), st)
  {
  }

  lemma LoopFailsOnTest(fetch: Fetch, st: State, data: Json, condition: Condition, fuel: nat)
    requires HasNextPage(condition, data).Failure?
    ensures Loop(fetch, st, data, condition, fuel) == Reply(Failure(HasNextPage(condition, data).error), st)
  {
  }

  lemma LoopUnfoldsOnce(fetch: Fetch, st: State, data: Json, condition: Condition, rest: nat)
    requires HasNextPage(condition, data) == Success(true)
    ensures Loop(fetch, st, data, condition, rest + 1) == Continue(fetch, Step(fetch, st, data), condition, rest)
  {
    LoopTakesStep(fetch, st, data, condition, rest + 1);
  }

  lemma LoopTakesStep(fetch: Fetch, st: State, data: Json, condition: Condition, fuel: nat)
    requires HasNextPage(condition, data) == Success(true)
    requires fuel > 0
    ensures Loop(fetch, st, data, condition, fuel) == Continue(fetch, Step(fetch, st, data), condition, fuel - 1)
  {
  }

  lemma LoopThroughStep(fetch: Fetch, st: State, data: Json, condition: Condition, fuel: nat, rest: nat)
    requires HasNextPage(condition, data) == Success(true)
    requires fuel == rest + 1
    requires Step(fetch, st, data).result.Success?
    ensures Loop(fetch, st, data, condition, fuel)
         == Loop(fetch, Step(fetch, st, data).state, Step(fetch, st, data).result.value, condition, rest)
  {
    LoopTakesStep(fetch, st, data, condition, rest + 1);
    ContinueAfterSuccess(fetch, Step(fetch, st, data), condition, rest);
  }

  lemma ContinueAfterSuccess(fetch: Fetch, step: Reply<Json>, condition: Condition, fuel: nat)
    requires step.result.Success?
    ensures Continue(fetch, step, condition, fuel) == Loop(fetch, step.state, step.result.value, condition, fuel)
  {
  }

  /** `handle_pagination(url, params)` as written. */
  function HandlePagination(server: Server, client: Client, st: State, url: Json, params: Option<Params>, fuel: nat): Reply<Json> {
    Paginate(server, client, st, url, params, KeyPresent, fuel)
  }

  /** `handle_pagination` with the loop test corrected to stop at a `None` link. */
  function HandlePaginationFixed(server: Server, client: Client, st: State, url: Json, params: Option<Params>, fuel: nat): Reply<Json> {
    Paginate(server, client, st, url, params, LinkNotNull, fuel)
  }

  function Paginate(server: Server, client: Client, st: State, url: Json, params: Option<Params>,
                    condition: Condition, fuel: nat): Reply<Json> {
    var first := MakeRequest(server, client, st, url, GET, params, JNull, DefaultRetries);
    match first.result
    case Failure(_) => first
    case Success(data) => Loop(FetchPage(server, client), first.state, data, condition, fuel)
  }

  /** Between `before` and `after` the client only appended GET requests
      with its own headers and no body. */
  ghost predicate SentGets(before: State, after: State, client: Client) {
    && |before.sent| <= |after.sent|
    && after.sent[..|before.sent|] == before.sent
    && forall i :: |before.sent| <= i < |after.sent| ==>
         after.sent[i].verb == GET && after.sent[i].headers == client.headers && after.sent[i].json == JNull
  }

  lemma SentGetsNothing(st: State, client: Client)
    ensures SentGets(st, st, client)
  {
    assert st.sent[..|st.sent|] == st.sent;
  }

  lemma SentGetsChain(a: State, b: State, c: State, client: Client)
    requires SentGets(a, b, client) && SentGets(b, c, client)
    ensures SentGets(a, c, client)
  {
    assert c.sent[..|a.sent|] == c.sent[..|b.sent|][..|a.sent|];
    forall i | |a.sent| <= i < |c.sent|
      ensures c.sent[i].verb == GET && c.sent[i].headers == client.headers && c.sent[i].json == JNull
    {
      if i < |b.sent| {
        assert c.sent[i] == c.sent[..|b.sent|][i];
      }
    }
  }

  /** A GET through `make_request` sends only GETs. */
  lemma GetSendsGets(server: Server, client: Client, st: State, url: Json, params: Option<Params>)
    ensures SentGets(st, MakeRequest(server, client, st, url, GET, params, JNull, DefaultRetries).state, client)
  {
  }

  lemma StepSendsGets(server: Server, client: Client, st: State, data: Json)
    ensures SentGets(st, Step(FetchPage(server, client), st, data).state, client)
  {
    match Subscript(data, NextLink)
    case Failure(_) => SentGetsNothing(st, client);
    case Success(link) => GetSendsGets(server, client, st, link, None);
  }

  /** The pagination loop sends only GETs. */
  lemma {:induction false} LoopSendsGets(server: Server, client: Client, st: State, data: Json,
                                         condition: Condition, fuel: nat)
    ensures SentGets(st, Loop(FetchPage(server, client), st, data, condition, fuel).state, client)
    decreases fuel
  {
    var fetch := FetchPage(server, client);
    if HasNextPage(condition, data) != Success(true) || fuel == 0 {
      LoopSendsNothing(fetch, st, data, condition, fuel);
      SentGetsNothing(st, client);
    } else {
      var step := Step(fetch, st, data);
      var rest: nat := fuel - 1;
      StepSendsGets(server, client, st, data);
      if step.result.Success? {
        LoopSendsGets(server, client, step.state, step.result.value, condition, rest);
      }
      SendsGetsAfterStep(server, client, st, data, condition, fuel, step, rest);
    }
  }

  /** A loop that stops at once, or has no budget, sends nothing. */
  lemma LoopSendsNothing(fetch: Fetch, st: State, data: Json, condition: Condition, fuel: nat)
    requires HasNextPage(condition, data) != Success(true) || fuel == 0
    ensures Loop(fetch, st, data, condition, fuel).state == st
  {
  }

  lemma SendsGetsAfterStep(server: Server, client: Client, st: State, data: Json, condition: Condition,
                           fuel: nat, step: Reply<Json>, rest: nat)
    requires HasNextPage(condition, data) == Success(true)
    requires step == Step(FetchPage(server, client), st, data) && fuel == rest + 1
    requires SentGets(st, step.state, client)
    requires step.result.Success? ==>
      SentGets(step.state, Loop(FetchPage(server, client), step.state, step.result.value, condition, rest).state, client)
    ensures SentGets(st, Loop(FetchPage(server, client), st, data, condition, fuel).state, client)
  {
    var fetch := FetchPage(server, client);
    LoopUnfoldsOnce(fetch, st, data, condition, rest);
    if step.result.Success? {
      ContinueAfterSuccess(fetch, step, condition, rest);
      SentGetsChain(st, step.state, Continue(fetch, step, condition, rest).state, client);
    }
  }

  /** `handle_pagination` sends only GETs, and when the gate lets it through
      its first request is the GET of `url` with the caller's parameters. */
  lemma PaginateSendsGets(server: Server, client: Client, st: State, url: string, params: Option<Params>,
                          condition: Condition, fuel: nat)
    ensures var r := Paginate(server, client, st, JStr(url), params, condition, fuel);
      && SentGets(st, r.state, client)
      && (GateOpen(st) ==> |r.state.sent| > |st.sent| && r.state.sent[|st.sent|] == Request(GET, url, client.headers, params, JNull))
  {
    var first := MakeRequest(server, client, st, JStr(url), GET, params, JNull, DefaultRetries);
    GetSendsGets(server, client, st, JStr(url), params);
    if first.result.Success? {
      var r := Loop(FetchPage(server, client), first.state, first.result.value, condition, fuel);
      LoopSendsGets(server, client, first.state, first.result.value, condition, fuel);
      SentGetsChain(st, first.state, r.state, client);
      if GateOpen(st) {
        assert r.state.sent[|st.sent|] == r.state.sent[..|first.state.sent|][|st.sent|];
      }
    }
  }

  /** One iteration appends the fetched page's items after the accumulated
      ones, stores the page's link (or `None`) under the link key, and leaves
      every other key as it was. */
  lemma StepAppends(fetch: Fetch, st: State, data: Json, link: Json, items: seq<Json>, page: Fields, more: seq<Json>)
    requires data.JObj?
    requires Lookup(data.fields, NextLink) == Some(link)
    requires Lookup(data.fields, ValueKey) == Some(JArr(items))
    requires fetch(st, link).result == Success(JObj(page))
    requires Lookup(page, ValueKey) == Some(JArr(more))
    ensures var r := Step(fetch, st, data);
      && r.result.Success? && r.result.value.JObj?
      && Lookup(r.result.value.fields, ValueKey) == Some(JArr(items + more))
      && Lookup(r.result.value.fields, NextLink) == Some(Get(page, NextLink))
      && (forall key :: key != ValueKey && key != NextLink ==>
            Lookup(r.result.value.fields, key) == Lookup(data.fields, key))
      && r.state == fetch(st, link).state
  {
    var extended := Update(data.fields, ValueKey, JArr(items + more));
    UpdateStores(data.fields, ValueKey, JArr(items + more));
    UpdateStores(extended, NextLink, Get(page, NextLink));
  }

  /** The source's loop never ends well once the accumulator holds the link
      key: every iteration writes the key back (as `None` when the page has
      no link), so the test stays true until something raises or the page
      budget runs out. */
  lemma {:induction false} KeyPresentLoopFails(fetch: Fetch, st: State, data: Json, fuel: nat)
    requires data.JObj? && NextLink in Keys(data.fields)
    ensures Loop(fetch, st, data, KeyPresent, fuel).result.Failure?
    decreases fuel
  {
    HasNextPageOfObject(KeyPresent, data.fields);
    if fuel == 0 {
      LoopOutOfFuel(fetch, st, data, KeyPresent);
    } else {
      var step := Step(fetch, st, data);
      var rest: nat := fuel - 1;
      if step.result.Success? {
        KeyPresentLoopFails(fetch, step.state, step.result.value, rest);
      }
      FailsAfterStep(fetch, st, data, KeyPresent, fuel, step, rest);
    }
  }

  /** If the loop fails after its first iteration, it fails. */
  lemma FailsAfterStep(fetch: Fetch, st: State, data: Json, condition: Condition, fuel: nat,
                       step: Reply<Json>, rest: nat)
    requires HasNextPage(condition, data) == Success(true)
    requires step == Step(fetch, st, data) && fuel == rest + 1
    requires step.result.Success? ==> Loop(fetch, step.state, step.result.value, condition, rest).result.Failure?
    ensures Loop(fetch, st, data, condition, fuel).result.Failure?
  {
    LoopUnfoldsOnce(fetch, st, data, condition, rest);
  }

  /** As written, `get_data` succeeds only when the first page has no link
      key at all: a first page that carries `@odata.nextLink` always ends in
      an exception. */
  lemma LinkedFirstPageFails(server: Server, client: Client, st: State, url: Json, params: Option<Params>,
                             fuel: nat, first: Fields)
    requires MakeRequest(server, client, st, url, GET, params, JNull, DefaultRetries).result == Success(JObj(first))
    requires NextLink in Keys(first)
    ensures HandlePagination(server, client, st, url, params, fuel).result.Failure?
  {
    var r := MakeRequest(server, client, st, url, GET, params, JNull, DefaultRetries);
    KeyPresentLoopFails(FetchPage(server, client), r.state, JObj(first), fuel);
  }

  /** A first page without a link key is returned as it came, in both
      versions of the loop. */
  lemma UnlinkedFirstPageReturned(server: Server, client: Client, st: State, url: Json, params: Option<Params>,
                                  condition: Condition, fuel: nat, first: Fields)
    requires MakeRequest(server, client, st, url, GET, params, JNull, DefaultRetries).result == Success(JObj(first))
    requires NextLink !in Keys(first)
    ensures Paginate(server, client, st, url, params, condition, fuel)
         == Reply(Success(JObj(first)), MakeRequest(server, client, st, url, GET, params, JNull, DefaultRetries).state)
  {
  }

  /** A first request that exhausted its retries returns `None`, and
      `"@odata.nextLink" in None` raises `TypeError`. */
  lemma NoneFirstPageIsTypeError(server: Server, client: Client, st: State, url: Json, params: Option<Params>,
                                 condition: Condition, fuel: nat)
    requires MakeRequest(server, client, st, url, GET, params, JNull, DefaultRetries).result == Success(JNull)
    ensures Paginate(server, client, st, url, params, condition, fuel).result == Failure(TypeError)
  {
  }

  /** The page budget only matters when it runs out: any other outcome is
      the same for every larger budget. */
  lemma {:induction false} LoopFuelMonotone(fetch: Fetch, st: State, data: Json, condition: Condition, fuel: nat, more: nat)
    requires fuel <= more
    requires Loop(fetch, st, data, condition, fuel).result != Failure(PagesExhausted)
    ensures Loop(fetch, st, data, condition, more) == Loop(fetch, st, data, condition, fuel)
    decreases fuel, 0
  {
    if HasNextPage(condition, data) != Success(true) {
      FuelIrrelevantWhenStopping(fetch, st, data, condition, fuel, more);
    } else if fuel == 0 {
      LoopOutOfFuel(fetch, st, data, condition);
    } else {
      var step := Step(fetch, st, data);
      var f: nat, m: nat := fuel - 1, more - 1;
      ContinueFuelMonotoneStep(fetch, st, data, condition, fuel, step, f);
      ContinueFuelMonotone(fetch, step, condition, f, m);
      FuelMonotoneAfterStep(fetch, st, data, condition, fuel, more, step, f, m);
    }
  }

  lemma FuelIrrelevantWhenStopping(fetch: Fetch, st: State, data: Json, condition: Condition, fuel: nat, more: nat)
    requires HasNextPage(condition, data) != Success(true)
    ensures Loop(fetch, st, data, condition, more) == Loop(fetch, st, data, condition, fuel)
  {
    if HasNextPage(condition, data).Failure? {
      LoopFailsOnTest(fetch, st, data, condition, fuel);
      LoopFailsOnTest(fetch, st, data, condition, more);
    } else {
      LoopStopsWhenNoNextPage(fetch, st, data, condition, fuel);
      LoopStopsWhenNoNextPage(fetch, st, data, condition, more);
    }
  }

  lemma ContinueFuelMonotoneStep(fetch: Fetch, st: State, data: Json, condition: Condition, fuel: nat,
                                 step: Reply<Json>, f: nat)
    requires HasNextPage(condition, data) == Success(true)
    requires step == Step(fetch, st, data) && fuel == f + 1
    requires Loop(fetch, st, data, condition, fuel).result != Failure(PagesExhausted)
    ensures Continue(fetch, step, condition, f).result != Failure(PagesExhausted)
  {
    LoopUnfoldsOnce(fetch, st, data, condition, f);
  }

  lemma FuelMonotoneAfterStep(fetch: Fetch, st: State, data: Json, condition: Condition, fuel: nat, more: nat,
                              step: Reply<Json>, f: nat, m: nat)
    requires HasNextPage(condition, data) == Success(true)
    requires step == Step(fetch, st, data) && fuel == f + 1 && more == m + 1
    requires Continue(fetch, step, condition, m) == Continue(fetch, step, condition, f)
    ensures Loop(fetch, st, data, condition, more) == Loop(fetch, st, data, condition, fuel)
  {
    LoopUnfoldsOnce(fetch, st, data, condition, f);
    LoopUnfoldsOnce(fetch, st, data, condition, m);
  }

  lemma {:induction false} ContinueFuelMonotone(fetch: Fetch, step: Reply<Json>, condition: Condition, fuel: nat, more: nat)
    requires fuel <= more
    requires Continue(fetch, step, condition, fuel).result != Failure(PagesExhausted)
    ensures Continue(fetch, step, condition, more) == Continue(fetch, step, condition, fuel)
    decreases fuel, 1
  {
    if step.result.Success? {
      LoopFuelMonotone(fetch, step.state, step.result.value, condition, fuel, more);
    }
  }

  /** The items a page contributes: its `value` list. */
  function ItemsOf(page: Json): seq<Json> {
    if page.JObj? && Lookup(page.fields, ValueKey).Some? && Lookup(page.fields, ValueKey).value.JArr?
    then Lookup(page.fields, ValueKey).value.items
    else []
  }

  /** The items of a run of pages, page after page. */
  function AllItems(pages: seq<Json>): seq<Json> {
    if pages == [] then [] else AllItems(pages[..|pages| - 1]) + ItemsOf(pages[|pages| - 1])
  }

  /** `pages[i]` lives at `urls[i]`; each page is an object with a `value`
      list; each page but the last links to the next one; the last has no
      link, or a null one. */
  ghost predicate LinkedChain(urls: seq<string>, pages: seq<Json>) {
    && |urls| == |pages| > 0
    && (forall i :: 0 <= i < |pages| ==>
          pages[i].JObj? && Lookup(pages[i].fields, ValueKey).Some? && Lookup(pages[i].fields, ValueKey).value.JArr?)
    && (forall i :: 0 <= i < |pages| - 1 ==> Lookup(pages[i].fields, NextLink) == Some(JStr(urls[i + 1])))
    && Get(pages[|pages| - 1].fields, NextLink) == JNull
  }

  /** A fetch that, whenever the rate-limit gate is open, answers each URL
      of the chain with its page in one exchange and leaves the gate open,
      and rejects a `None` link with `DataFetchError`. */
  ghost predicate ServesChain(fetch: Fetch, urls: seq<string>, pages: seq<Json>)
    requires |urls| == |pages|
  {
    && (forall st: State, i {:trigger fetch(st, JStr(urls[i]))} :: 0 <= i < |urls| && GateOpen(st) ==>
          && fetch(st, JStr(urls[i])).result == Success(pages[i])
          && GateOpen(fetch(st, JStr(urls[i])).state)
          && |fetch(st, JStr(urls[i])).state.sent| == |st.sent| + 1)
    && (forall st: State {:trigger fetch(st, JNull)} :: GateOpen(st) ==> fetch(st, JNull).result == Failure(DataFetchError(JNull)))
  }

  /** The accumulator after pages `0..i` have been merged. */
  ghost predicate Accumulated(data: Json, urls: seq<string>, pages: seq<Json>, i: nat)
    requires LinkedChain(urls, pages) && i < |pages|
  {
    && data.JObj?
    && Lookup(data.fields, ValueKey) == Some(JArr(AllItems(pages[..i + 1])))
    && Get(data.fields, NextLink) == (if i < |pages| - 1 then JStr(urls[i + 1]) else JNull)
    && (i > 0 ==> NextLink in Keys(data.fields))
  }

  lemma AllItemsSnoc(pages: seq<Json>, i: nat)
    requires i + 1 < |pages|
    ensures AllItems(pages[..i + 2]) == AllItems(pages[..i + 1]) + ItemsOf(pages[i + 1])
  {
    assert pages[..i + 2][..i + 1] == pages[..i + 1];
  }

  /** Following the link from page `i` merges page `i + 1`. */
  lemma ChainStep(fetch: Fetch, st: State, urls: seq<string>, pages: seq<Json>, i: nat, data: Json)
    requires LinkedChain(urls, pages) && ServesChain(fetch, urls, pages)
    requires GateOpen(st)
    requires i < |pages| - 1
    requires Accumulated(data, urls, pages, i)
    ensures var step := Step(fetch, st, data);
      && step.result.Success?
      && Accumulated(step.result.value, urls, pages, i + 1)
      && GateOpen(step.state)
      && |step.state.sent| == |st.sent| + 1
  {
    var link := JStr(urls[i + 1]);
    var next := pages[i + 1];
    assert Lookup(data.fields, NextLink) == Some(link);
    assert fetch(st, link).result == Success(next);
    assert next.JObj? && Lookup(next.fields, ValueKey) == Some(JArr(ItemsOf(next)));
    StepAppends(fetch, st, data, link, AllItems(pages[..i + 1]), next.fields, ItemsOf(next));
    AccumulatedAfterMerge(urls, pages, i, Step(fetch, st, data).result.value);
  }

  /** Merging page `i + 1` into the accumulator for pages `0..i`. */
  lemma AccumulatedAfterMerge(urls: seq<string>, pages: seq<Json>, i: nat, merged: Json)
    requires LinkedChain(urls, pages)
    requires i < |pages| - 1
    requires merged.JObj?
    requires Lookup(merged.fields, ValueKey) == Some(JArr(AllItems(pages[..i + 1]) + ItemsOf(pages[i + 1])))
    requires Lookup(merged.fields, NextLink) == Some(Get(pages[i + 1].fields, NextLink))
    requires i > 0 ==> NextLink in Keys(merged.fields)
    ensures Accumulated(merged, urls, pages, i + 1)
  {
    AllItemsSnoc(pages, i);
    if i + 1 < |pages| - 1 {
      assert Lookup(pages[i + 1].fields, NextLink) == Some(JStr(urls[i + 2]));
    }
  }

  /** The loop succeeded with every page's items, after `sent` requests in all. */
  ghost predicate Gathered(r: Reply<Json>, pages: seq<Json>, sent: nat) {
    && r.result.Success? && r.result.value.JObj?
    && Lookup(r.result.value.fields, ValueKey) == Some(JArr(AllItems(pages)))
    && |r.state.sent| == sent
  }

  /** At the last page the corrected test stops. */
  lemma ChainEndFixed(fetch: Fetch, st: State, urls: seq<string>, pages: seq<Json>, data: Json, fuel: nat)
    requires LinkedChain(urls, pages)
    requires Accumulated(data, urls, pages, |pages| - 1)
    ensures var r := Loop(fetch, st, data, LinkNotNull, fuel);
      && r == Reply(Success(data), st)
      && Lookup(data.fields, ValueKey) == Some(JArr(AllItems(pages)))
  {
    assert pages[..|pages|] == pages;
    HasNextPageOfObject(LinkNotNull, data.fields);
    LoopStopsWhenNoNextPage(fetch, st, data, LinkNotNull, fuel);
  }

  /** One link followed: the corrected loop's result from page `i` is its
      result from page `i + 1`. */
  lemma ChainLoopFixedStep(fetch: Fetch, st: State, urls: seq<string>, pages: seq<Json>, i: nat, data: Json,
                           fuel: nat, next: nat, rest: nat)
    requires LinkedChain(urls, pages)
    requires i < |pages| - 1 && Accumulated(data, urls, pages, i)
    requires next == i + 1 && fuel == rest + 1
    requires Step(fetch, st, data).result.Success?
    requires |Step(fetch, st, data).state.sent| == |st.sent| + 1
    requires (var step := Step(fetch, st, data);
              Gathered(Loop(fetch, step.state, step.result.value, LinkNotNull, rest), pages,
                       |step.state.sent| + (|pages| - 1 - next)))
    ensures Gathered(Loop(fetch, st, data, LinkNotNull, fuel), pages, |st.sent| + (|pages| - 1 - i))
  {
    HasNextPageOfObject(LinkNotNull, data.fields);
    LoopThroughStep(fetch, st, data, LinkNotNull, fuel, rest);
  }

  /** With the corrected test, the loop runs to the end of the chain and
      returns every page's items in page order. */
  lemma {:induction false} ChainLoopFixed(fetch: Fetch, st: State, urls: seq<string>, pages: seq<Json>, i: nat,
                                          data: Json, fuel: nat)
    requires LinkedChain(urls, pages) && ServesChain(fetch, urls, pages)
    requires GateOpen(st)
    requires i < |pages| && Accumulated(data, urls, pages, i)
    requires fuel >= |pages| - 1 - i
    ensures Gathered(Loop(fetch, st, data, LinkNotNull, fuel), pages, |st.sent| + (|pages| - 1 - i))
    decreases |pages| - i
  {
    if i == |pages| - 1 {
      ChainEndFixed(fetch, st, urls, pages, data, fuel);
    } else {
      ChainStep(fetch, st, urls, pages, i, data);
      var step := Step(fetch, st, data);
      var next: nat, rest: nat := i + 1, fuel - 1;
      ChainLoopFixed(fetch, step.state, urls, pages, next, step.result.value, rest);
      ChainLoopFixedStep(fetch, st, urls, pages, i, data, fuel, next, rest);
    }
  }

  /** At the last page the source's test still sees the key, and the loop
      fetches the `None` it stored. */
  lemma ChainEndAsWritten(fetch: Fetch, st: State, urls: seq<string>, pages: seq<Json>, data: Json, fuel: nat)
    requires LinkedChain(urls, pages) && ServesChain(fetch, urls, pages)
    requires GateOpen(st)
    requires |pages| >= 2
    requires Accumulated(data, urls, pages, |pages| - 1)
    requires fuel > 0
    ensures Loop(fetch, st, data, KeyPresent, fuel).result == Failure(DataFetchError(JNull))
  {
    HasNextPageOfObject(KeyPresent, data.fields);
    LoopTakesStep(fetch, st, data, KeyPresent, fuel);
    assert Lookup(data.fields, NextLink) == Some(JNull);
    assert Step(fetch, st, data).result == Failure(DataFetchError(JNull));
  }

  /** With the source's test, the same chain ends in `DataFetchError` for the
      URL `None` once its last page is merged. */
  lemma {:induction false} ChainLoopAsWritten(fetch: Fetch, st: State, urls: seq<string>, pages: seq<Json>, i: nat,
                                              data: Json, fuel: nat)
    requires LinkedChain(urls, pages) && ServesChain(fetch, urls, pages)
    requires GateOpen(st)
    requires |pages| >= 2
    requires i < |pages| && Accumulated(data, urls, pages, i)
    requires fuel >= |pages| - i
    ensures Loop(fetch, st, data, KeyPresent, fuel).result == Failure(DataFetchError(JNull))
    decreases |pages| - i
  {
    if i == |pages| - 1 {
      ChainEndAsWritten(fetch, st, urls, pages, data, fuel);
    } else {
      HasNextPageOfObject(KeyPresent, data.fields);
      ChainStep(fetch, st, urls, pages, i, data);
      var step := Step(fetch, st, data);
      var next: nat, rest: nat := i + 1, fuel - 1;
      LoopThroughStep(fetch, st, data, KeyPresent, fuel, rest);
      ChainLoopAsWritten(fetch, step.state, urls, pages, next, step.result.value, rest);
    }
  }

  /** A server that answers a GET for each URL of the chain with 200 and
      that URL's page, whatever the query parameters and however many
      exchanges came before. */
  ghost predicate PagesServed(server: Server, client: Client, urls: seq<string>, pages: seq<Json>) {
    && |urls| == |pages|
    && forall i, q: Option<Params>, k: nat :: 0 <= i < |urls| ==>
         Answers(server(RequestFor(client, urls[i], GET, q, JNull), k), pages[i])
  }

  predicate Answers(answer: Response, page: Json) {
    answer.Response? && answer.status == StatusOk && answer.body == Some(page)
  }

  /** Such a server makes `make_request` serve the chain the way the loop
      lemmas take as given. */
  lemma FetchPageServesChain(server: Server, client: Client, urls: seq<string>, pages: seq<Json>)
    requires PagesServed(server, client, urls, pages)
    ensures ServesChain(FetchPage(server, client), urls, pages)
  {
    var fetch := FetchPage(server, client);
    forall st: State, i | 0 <= i < |urls| && GateOpen(st)
      ensures && fetch(st, JStr(urls[i])).result == Success(pages[i])
              && GateOpen(fetch(st, JStr(urls[i])).state)
              && |fetch(st, JStr(urls[i])).state.sent| == |st.sent| + 1
    {
      assert Answers(server(RequestFor(client, urls[i], GET, None, JNull), |st.sent|), pages[i]);
      RetriesUntilOk(server, client, st, urls[i], GET, None, JNull, DefaultRetries, 0, pages[i]);
    }
  }

  /** The first page of a chain is the accumulator before any link is followed. */
  lemma FirstPageAccumulated(urls: seq<string>, pages: seq<Json>)
    requires LinkedChain(urls, pages)
    ensures Accumulated(pages[0], urls, pages, 0)
  {
    var page := pages[0];
    assert page.JObj? && Lookup(page.fields, ValueKey).Some? && Lookup(page.fields, ValueKey).value.JArr?;
    assert pages[..1] == [page];
    assert AllItems(pages[..1]) == AllItems([]) + ItemsOf(page);
    assert AllItems(pages[..1]) == Lookup(page.fields, ValueKey).value.items;
    if |pages| > 1 {
      assert Lookup(pages[0].fields, NextLink) == Some(JStr(urls[1]));
    }
  }

  /** With the corrected loop test, `handle_pagination` on a served chain
      returns one dict whose `value` holds every page's items in page order,
      after one exchange per page. */
  lemma PaginateChainFixed(server: Server, client: Client, st: State, urls: seq<string>, pages: seq<Json>,
                           params: Option<Params>, fuel: nat)
    requires LinkedChain(urls, pages) && PagesServed(server, client, urls, pages)
    requires GateOpen(st)
    requires fuel >= |pages| - 1
    ensures Gathered(HandlePaginationFixed(server, client, st, JStr(urls[0]), params, fuel), pages, |st.sent| + |pages|)
  {
    var fetch := FetchPage(server, client);
    assert Answers(server(RequestFor(client, urls[0], GET, params, JNull), |st.sent|), pages[0]);
    RetriesUntilOk(server, client, st, urls[0], GET, params, JNull, DefaultRetries, 0, pages[0]);
    var first := MakeRequest(server, client, st, JStr(urls[0]), GET, params, JNull, DefaultRetries);
    FetchPageServesChain(server, client, urls, pages);
    FirstPageAccumulated(urls, pages);
    ChainLoopFixed(fetch, first.state, urls, pages, 0, pages[0], fuel);
  }

  /** As written, the same chain of two or more pages ends in
      `DataFetchError` for the URL `None`: multi-page reads never succeed. */
  lemma PaginateChainAsWritten(server: Server, client: Client, st: State, urls: seq<string>, pages: seq<Json>,
                               params: Option<Params>, fuel: nat)
    requires LinkedChain(urls, pages) && PagesServed(server, client, urls, pages)
    requires GateOpen(st)
    requires |pages| >= 2
    requires fuel >= |pages|
    ensures HandlePagination(server, client, st, JStr(urls[0]), params, fuel).result == Failure(DataFetchError(JNull))
  {
    var fetch := FetchPage(server, client);
    assert Answers(server(RequestFor(client, urls[0], GET, params, JNull), |st.sent|), pages[0]);
    RetriesUntilOk(server, client, st, urls[0], GET, params, JNull, DefaultRetries, 0, pages[0]);
    var first := MakeRequest(server, client, st, JStr(urls[0]), GET, params, JNull, DefaultRetries);
    FetchPageServesChain(server, client, urls, pages);
    FirstPageAccumulated(urls, pages);
    ChainLoopAsWritten(fetch, first.state, urls, pages, 0, pages[0], fuel);
  }
}

=== FILE: service.dfy ===
/** The public face of `SAP_ODataService`: construction, and the four calls
    that build `<service_url>/<endpoint>` and go through `make_request`. */
module Service {
  import opened Wrappers
  import opened Json
  import opened Errors
  import opened Executor
  import opened Pagination
  import Auth

  /** `__init__`: the service URL from the settings, the two fixed headers,
      and the Basic-Auth header, which raises `AuthenticationError` when a
      credential is missing. The environment is passed in. */
  function NewClient(serviceUrl: string, username: Option<string>, password: Option<string>): (r: Result<Client, Error>)
    ensures r.Failure? <==> !Auth.Present(username) || !Auth.Present(password)
    ensures r.Failure? ==> r.error == AuthenticationError
    ensures r.Success? ==>
      && r.value.serviceUrl == serviceUrl
      && |r.value.headers| == 2
      && r.value.headers[0] == ("Accept", "application/json")
      && r.value.headers[1].0 == "Authorization"
      && |r.value.headers[1].1| > |Auth.Scheme|
      && r.value.headers[1].1[..|Auth.Scheme|] == Auth.Scheme
  {
    match Auth.BasicAuthHeader(username, password)
    case Failure(e) => Failure(e)
    case Success(header) => Success(Client(serviceUrl, [("Accept", "application/json"), ("Authorization", header)]))
  }

  /** A client built from credentials carries them: the `Authorization`
      header decodes to exactly the username and password. */
  lemma NewClientCarriesCredentials(serviceUrl: string, username: string, password: string)
    requires username != "" && password != ""
    requires ':' !in username
    ensures NewClient(serviceUrl, Some(username), Some(password)).Success?
    ensures Auth.ParseBasicAuth(NewClient(serviceUrl, Some(username), Some(password)).value.headers[1].1)
         == Some((username, password))
  {
    Auth.HeaderRoundTrip(username, password);
  }

  /** `f"{self.service_url}/{endpoint}"`. */
  function EndpointUrl(client: Client, endpoint: string): (url: string)
    ensures |url| == |client.serviceUrl| + 1 + |endpoint|
    ensures url[..|client.serviceUrl|] == client.serviceUrl && url[|client.serviceUrl|] == '/'
    ensures url[|client.serviceUrl| + 1..] == endpoint
  {
    client.serviceUrl + "/" + endpoint
  }

  /** Distinct endpoints of one client are distinct URLs. */
  lemma EndpointUrlInjective(client: Client, a: string, b: string)
    ensures EndpointUrl(client, a) == EndpointUrl(client, b) <==> a == b
  {
    if EndpointUrl(client, a) == EndpointUrl(client, b) {
      assert a == EndpointUrl(client, a)[|client.serviceUrl| + 1..];
    }
  }

  /** A call sent only requests for `endpoint` with `verb`, `params` and
      body `json`, at least one and at most `DefaultRetries + 1` of them;
      it was refused without a request exactly when the gate was shut; any
      other failure names the endpoint's URL; and a success is what the
      server's last answer settled, as for `make_request`. */
  ghost predicate Routed(server: Server, client: Client, st: State, r: Reply<Json>, endpoint: string, verb: Method,
                         params: Option<Params>, json: Json) {
    var url := EndpointUrl(client, endpoint);
    && |st.sent| <= |r.state.sent| <= |st.sent| + DefaultRetries + 1
    && (GateOpen(st) ==> |r.state.sent| > |st.sent|)
    && r.state.sent[..|st.sent|] == st.sent
    && (forall i :: |st.sent| <= i < |r.state.sent| ==> r.state.sent[i] == Request(verb, url, client.headers, params, json))
    && (r.result == Failure(RateLimitError) <==> !GateOpen(st))
    && (!GateOpen(st) ==> r.state == st)
    && (r.result.Failure? && GateOpen(st) ==> r.result.error == DataFetchError(JStr(url)))
    && (r.result.Success? ==> Settled(server, st, r))
  }

  /** `create_data(endpoint, json)`: one POST with the body. */
  function CreateData(server: Server, client: Client, st: State, endpoint: string, json: Json): (r: Reply<Json>)
    ensures Routed(server, client, st, r, endpoint, POST, None, json)
  {
    MakeRequest(server, client, st, JStr(EndpointUrl(client, endpoint)), POST, None, json, DefaultRetries)
  }

  /** `update_data(endpoint, json)`: one PUT with the body. */
  function UpdateData(server: Server, client: Client, st: State, endpoint: string, json: Json): (r: Reply<Json>)
    ensures Routed(server, client, st, r, endpoint, PUT, None, json)
  {
    MakeRequest(server, client, st, JStr(EndpointUrl(client, endpoint)), PUT, None, json, DefaultRetries)
  }

  /** `delete_data(endpoint)`: one DELETE without a body. */
  function DeleteData(server: Server, client: Client, st: State, endpoint: string): (r: Reply<Json>)
    ensures Routed(server, client, st, r, endpoint, DELETE, None, JNull)
  {
    MakeRequest(server, client, st, JStr(EndpointUrl(client, endpoint)), DELETE, None, JNull, DefaultRetries)
  }

  /** `get_data(endpoint, params)`: paginate from the endpoint's URL with the
      loop exactly as main.py:84-87 writes it. */
  function GetData(server: Server, client: Client, st: State, endpoint: string, params: Option<Params>,
                   fuel: nat): (r: Reply<Json>)
    ensures !GateOpen(st) ==> r == Reply(Failure(RateLimitError), st)
    ensures SentGets(st, r.state, client)
    ensures GateOpen(st) ==>
      |r.state.sent| > |st.sent| && r.state.sent[|st.sent|] == Request(GET, EndpointUrl(client, endpoint), client.headers, params, JNull)
  {
    PaginateSendsGets(server, client, st, EndpointUrl(client, endpoint), params, KeyPresent, fuel);
    HandlePagination(server, client, st, JStr(EndpointUrl(client, endpoint)), params, fuel)
  }

  /** `get_data` with the loop test corrected to stop at a missing or `None`
      link. */
  function GetDataFixed(server: Server, client: Client, st: State, endpoint: string, params: Option<Params>,
                        fuel: nat): (r: Reply<Json>)
    ensures !GateOpen(st) ==> r == Reply(Failure(RateLimitError), st)
    ensures SentGets(st, r.state, client)
    ensures GateOpen(st) ==>
      |r.state.sent| > |st.sent| && r.state.sent[|st.sent|] == Request(GET, EndpointUrl(client, endpoint), client.headers, params, JNull)
  {
    PaginateSendsGets(server, client, st, EndpointUrl(client, endpoint), params, LinkNotNull, fuel);
    HandlePaginationFixed(server, client, st, JStr(EndpointUrl(client, endpoint)), params, fuel)
  }

  /** An endpoint answered with one unlinked page returns that page,
      after exactly one request. */
  lemma GetDataSinglePage(server: Server, client: Client, st: State, endpoint: string, params: Option<Params>,
                          fuel: nat, page: Fields)
    requires GateOpen(st)
    requires Answers(server(RequestFor(client, EndpointUrl(client, endpoint), GET, params, JNull), |st.sent|), JObj(page))
    requires NextLink !in Keys(page)
    ensures GetData(server, client, st, endpoint, params, fuel).result == Success(JObj(page))
    ensures |GetData(server, client, st, endpoint, params, fuel).state.sent| == |st.sent| + 1
  {
    var url := EndpointUrl(client, endpoint);
    RetriesUntilOk(server, client, st, url, GET, params, JNull, DefaultRetries, 0, JObj(page));
    UnlinkedFirstPageReturned(server, client, st, JStr(url), params, KeyPresent, fuel, page);
  }
}

=== FILE: utf8.dfy ===
/** UTF-8, the encoding `credentials.encode('utf-8')` applies before Base64.
    Dafny's `char` is a Unicode scalar value, so every string is encodable. */
module Utf8 {
  import opened Wrappers
  import opened Bytes

  predicate IsContinuation(b: byte) {
    0x80 <= b < 0xC0
  }

  /** The one to four bytes of one scalar value. */
  function EncodeChar(c: char): (bs: seq<byte>)
    ensures 1 <= |bs| <= 4
    ensures |bs| == 1 <==> c as int < 0x80
  {
    var cp := c as int;
    if cp < 0x80 then [cp]
    else if cp < 0x800 then [0xC0 + cp / 0x40, 0x80 + cp % 0x40]
    else if cp < 0x1_0000 then
      [0xE0 + cp / 0x1000, 0x80 + (cp / 0x40) % 0x40, 0x80 + cp % 0x40]
    else
      [0xF0 + cp / 0x4_0000, 0x80 + (cp / 0x1000) % 0x40, 0x80 + (cp / 0x40) % 0x40, 0x80 + cp % 0x40]
  }

  function Encode(s: string): seq<byte> {
    if s == [] then [] else EncodeChar(s[0]) + Encode(s[1..])
  }

  /** The scalar value at the front of `bs` and the number of bytes it takes,
      or `None` if the bytes there are not well-formed UTF-8 (no overlong
      forms, no surrogates, nothing above U+10FFFF). */
  function DecodeFirst(bs: seq<byte>): (r: Option<(char, nat)>)
    ensures r.Some? ==> 1 <= r.value.1 <= |bs|
  {
    if |bs| == 0 then None
    else
      var b0: int := bs[0];
      if b0 < 0x80 then Some((b0 as char, 1))
      else if 0xC2 <= b0 < 0xE0 then
        if |bs| >= 2 && IsContinuation(bs[1]) then
          Some((((b0 - 0xC0) * 0x40 + (bs[1] as int - 0x80)) as char, 2))
        else None
      else if 0xE0 <= b0 < 0xF0 then
        if |bs| >= 3 && IsContinuation(bs[1]) && IsContinuation(bs[2]) then
          var cp := (b0 - 0xE0) * 0x1000 + (bs[1] as int - 0x80) * 0x40 + (bs[2] as int - 0x80);
          if 0x800 <= cp && !(0xD800 <= cp < 0xE000) then Some((cp as char, 3)) else None
        else None
      else if 0xF0 <= b0 < 0xF5 then
        if |bs| >= 4 && IsContinuation(bs[1]) && IsContinuation(bs[2]) && IsContinuation(bs[3]) then
          var cp := (b0 - 0xF0) * 0x4_0000 + (bs[1] as int - 0x80) * 0x1000 + (bs[2] as int - 0x80) * 0x40 + (bs[3] as int - 0x80);
          if 0x1_0000 <= cp < 0x11_0000 then Some((cp as char, 4)) else None
        else None
      else None
  }

  /** Strict decoding: `None` on any ill-formed sequence. */
  function Decode(bs: seq<byte>): Option<string>
    decreases |bs|
  {
    if bs == [] then Some([])
    else match DecodeFirst(bs)
      case None => None
      case Some((c, n)) =>
        match Decode(bs[n..])
        case None => None
        case Some(rest) => Some([c] + rest)
  }

  lemma Split64(n: nat)
    ensures n == (n / 0x40) * 0x40 + n % 0x40
    ensures n / 0x1000 == (n / 0x40) / 0x40
    ensures n / 0x4_0000 == (n / 0x1000) / 0x40
  {
  }

  /** The bytes of one character decode to that character, whatever follows. */
  lemma DecodeFirstEncodeChar(c: char, rest: seq<byte>)
    ensures DecodeFirst(EncodeChar(c) + rest) == Some((c, |EncodeChar(c)|))
  {
    var cp := c as int;
    if cp < 0x80 {
    } else if cp < 0x800 {
      DecodeFirstTwo(c, rest);
    } else if cp < 0x1_0000 {
      DecodeFirstThree(c, rest);
    } else {
      DecodeFirstFour(c, rest);
    }
  }

  lemma DecodeFirstTwo(c: char, rest: seq<byte>)
    requires 0x80 <= c as int < 0x800
    ensures DecodeFirst(EncodeChar(c) + rest) == Some((c, 2))
  {
    Split64(c as int);
  }

  lemma DecodeFirstThree(c: char, rest: seq<byte>)
    requires 0x800 <= c as int < 0x1_0000
    ensures DecodeFirst(EncodeChar(c) + rest) == Some((c, 3))
  {
    var cp := c as int;
    Split64(cp);
    Split64(cp / 0x40);
  }

  lemma DecodeFirstFour(c: char, rest: seq<byte>)
    requires 0x1_0000 <= c as int
    ensures DecodeFirst(EncodeChar(c) + rest) == Some((c, 4))
  {
    var cp := c as int;
    Split64(cp);
    Split64(cp / 0x40);
    Split64(cp / 0x1000);
  }

  /** Decoding undoes encoding. */
  lemma {:induction false} DecodeEncode(s: string)
    ensures Decode(Encode(s)) == Some(s)
  {
    if s != [] {
      var head := EncodeChar(s[0]);
      var tail := Encode(s[1..]);
      DecodeFirstEncodeChar(s[0], tail);
      assert (head + tail)[|head|..] == tail;
      DecodeEncode(s[1..]);
      assert [s[0]] + s[1..] == s;
    }
  }

  /** Encoding distributes over concatenation. */
  lemma {:induction false} EncodeAppend(a: string, b: string)
    ensures Encode(a + b) == Encode(a) + Encode(b)
  {
    if a == [] {
      assert a + b == b;
    } else {
      assert (a + b)[0] == a[0];
      assert (a + b)[1..] == a[1..] + b;
      EncodeAppend(a[1..], b);
      calc {
        Encode(a + b);
        EncodeChar(a[0]) + Encode(a[1..] + b);
        EncodeChar(a[0]) + (Encode(a[1..]) + Encode(b));
        Encode(a) + Encode(b);
      }
    }
  }
}

=== FILE: wrappers.dfy ===
/** Option and Result, the failure-carrying datatypes used throughout the model. */
module Wrappers {

  /** A value that may be absent: Python's `None` versus a present value. */
  datatype Option<+T> = None | Some(value: T)

  /** Either a successful value or the exception the source would raise. */
  datatype Result<+R, +E> = Success(value: R) | Failure(error: E)
}
